=== FILE: README.md ===
# amp-readiness background driver, modelled in Dafny

This project models the background driver of the AMP Readiness browser
extension (a Wappalyzer derivative), `js/driver.js`. The driver sits between
browser events and the Wappalyzer detection engine. The model covers the
driver's own logic, written as pure functions over maps and sequences:

- the option store (`getOption` / `setOption` and the in-memory mirror `options`);
- the `webRequest.onCompleted` listener: header grouping and the HTML content-type trigger;
- the definition loader: which `apps.json` is read, `readApps` merging `extended_apps.json`, and `categoryOrder`;
- the per-tab tables `tabCache` and `urlCache`, together with `displayApps`, `tabs.onRemoved`, `addUrlToRequestCache`, `getUrlCache` and `clearRequestCache`;
- `getRobotsTxt`, as a state machine over the robots queue, the promises it holds and the option store;
- the `runtime.onMessage` dispatcher.

JavaScript values are the datatype `JsValues.JsValue`. Truthiness and string
conversion follow ECMAScript. `tabCache` and `urlCache` are plain objects,
so they are keyed by the string form of a tab id, as JavaScript does it.
The detection engine, the browser and the network become parameters:

- `tabs.query` results and the fetch outcomes are parameters;
- the robots parser is a function parameter;
- storage read failures are flags.

Files: `js_values.dfy` (modules `Wrappers`, `JsValues`), `option_store.dfy`,
`headers.dfy`, `definitions.dfy`, `tab_state.dfy`, `robots.dfy`, `messages.dfy`.

## Behaviour the code has

The model follows the code, including these consequences, each proved:

- `getOption` replaces every falsy stored value by the default. So
  `getOption('tracking', true)` always resolves truthy, and the tracking-off
  branch of `getRobotsTxt` is never taken (`OptionStore.TrackingReadsTruthy`,
  `Robots.TrackingReadAlwaysProceeds`). The branch itself is still modelled
  (`Robots.TrackingOffResolvesEmpty`).
- When the storage read fails, `getOption` rejects. It does not resolve the
  default. Nothing in `getRobotsTxt` catches that rejection, so the promise
  never settles, and the host's queue entry stays forever. Every later call
  for that host gets the same dead promise (`Robots.StuckPromiseNeverSettles`).
- The 3000 ms timer only resolves `[]`. A fetch that succeeds after the
  timeout still parses, stores and persists its rules
  (`Robots.LateSuccessAfterTimeoutStillWrites`).
- Single flight lasts only until the promise settles. Once the timer has
  resolved `[]`, `finally` deletes the queue entry while the fetch is still
  outstanding. The next call for that host then fetches the same robots.txt
  URL a second time (`Robots.SecondFetchAfterTimeout`).
- A non-ok robots response stores the parse of `''`
  (`Robots.NonOkStoresParseOfEmpty`).
- Each fetch writes back the cache object its own continuation read. Two
  overlapping fetches for different hosts can therefore lose the earlier
  host (`Robots.LastWriterWins`).
- Only a non-ok response of the remote `apps.json` falls back to the bundled
  copy. A network error is only logged (`Definitions.PrimarySource`,
  `Definitions.PrimaryFallbackOnlyOnNonOk`).
- When `extended_apps.json` fails to load, `categoryOrder` stays `[]` and the
  extended-only fields stay unset (`Definitions.ReadApps`).
- Closing a tab sets its `tabCache` entry to `null`; the entry is not
  deleted. Its `urlCache` list is never cleared (`TabState.CloseTab`).
- `clearRequestCache` is never called. If it were, the next
  `addUrlToRequestCache` for that tab would throw on `null.push`
  (`TabState.AddAfterClearThrows`). Each request is its own listener call,
  so the throw loses only that request: the entry stays `null` and other
  tabs' requests are still recorded (`TabState.ClearedTabDoesNotBlockOthers`).
- `get_apps` without `message.tab` throws inside the listener
  (`Messages.OnMessage`).
- The `get_apps` response carries the tab's `urlCache` entry as
  `tracked_urls`, not the engine's own `tracked_urls`, and it does not carry
  `categoryOrder`. Before `extended_apps.json` loads, its extended-only
  fields are `undefined` (`Messages.GetAppsBeforeExtendedLoads`).
- A response header named `__proto__` or `constructor` (in any case) makes
  `headers[name].push` throw a TypeError inside the `tabs.query` callback.
  The `.catch` at js/driver.js:186 only logs it, so that response is never
  analysed (`Headers.GroupHeaders`, `Headers.OnCompleted`).

## Model

| member | source | states |
|---|---|---|
| OptionStore.GetOption | js/driver.js:27-43 | a failed storage read rejects and leaves the mirror alone; otherwise the result is the stored value when truthy and the default otherwise, the mirror takes that value under the name and no other key changes |
| OptionStore.SetOption | js/driver.js:48-56 | storage and mirror both hold the value under the name afterwards; every other key is unchanged |
| OptionStore.SetThenGet | js/driver.js:27-56 | reading back an option just set yields the value if it is truthy and the default otherwise |
| OptionStore.SetDoesNotDisturbOtherOptions | js/driver.js:27-56 | setting one option does not change what reading any other option yields |
| OptionStore.TruthyDefaultHidesStoredFalse | js/driver.js:30 | with a truthy default, getOption never resolves to a falsy value, even when `false` is stored |
| OptionStore.TrackingReadsTruthy | js/driver.js:333 | `getOption('tracking', true)` resolves truthy whatever storage holds |
| Headers.GroupHeaders | js/driver.js:173-179 | `headers[name].push` throws a TypeError (caught and logged by the `.catch`) exactly when a header name lower-cases to an inherited `Object.prototype` property a lower-case key can spell (`__proto__`, `constructor`); otherwise a key is present exactly when some header's lower-cased name equals it, all keys are lower-case, and each key holds that name's value texts (`value`, else `binaryValue`, else `''`) in input order, none empty |
| Headers.TestHtml | js/driver.js:181 | the test holds exactly when `/html` or `/xhtml` occurs somewhere in the string |
| Headers.OnCompleted | js/driver.js:162-188 | analysis is invoked exactly when the headers are present, the tab query succeeded with a tab, no header name hits an inherited property, and the first `content-type` value names HTML; the call then carries the first tab, the request URL and the grouped headers |
| Definitions.PrimarySource | js/driver.js:107-120 | an ok remote response supplies its JSON, a non-ok one falls back to the bundled copy, and a network error supplies nothing |
| Definitions.PrimaryFallbackOnlyOnNonOk | js/driver.js:107-120 | when the remote copy is unusable and the bundled copy loads, the bundled copy is read exactly when the remote answered non-ok; after a network error nothing is read |
| Definitions.Assign | js/driver.js:88 | the result has the keys of both objects; the source's entries win, the target's others survive |
| Definitions.MergeApps | js/driver.js:88 | merged apps contain every primary and extended key; the extended entry wins on a collision |
| Definitions.MergeExample | js/driver.js:88 | primary `{A: 1}` with extended `{A: 2, B: 3}` merges to `{A: 2, B: 3}` |
| Definitions.ObjectKeys | js/driver.js:92 | category ids are enumerated once each, in ascending numeric order |
| Definitions.StableSortOfAscendingIsRanked | js/driver.js:92-94 | a stable sort by priority of ascending ids orders them by priority, ties by ascending id |
| Definitions.CategoryOrder | js/driver.js:92-94 | categoryOrder lists every category id exactly once, in non-decreasing priority, ties in ascending id |
| Definitions.RankedIsUnique | js/driver.js:92-94 | only one listing of a category set is ordered that way, so categoryOrder is fully determined by the categories |
| Definitions.CategoryOrderExample | js/driver.js:92-94 | categories 1 (priority 5) and 2 (priority 1) are ordered `[2, 1]` |
| Definitions.ReadApps | js/driver.js:80-104 | categories always come from the primary document; with the extended document, apps are merged (extended wins), categoryOrder is computed and the extended-only fields are set with empty tracked URLs; without it, only the primary apps and categories are set |
| TabState.DisplayApps | js/driver.js:302-313 | without a tab nothing changes; otherwise the tab's entry holds exactly the new detection, created if missing or null, and other tabs are unchanged |
| TabState.DisplayAppsOverwrites | js/driver.js:309-313 | a second detection for a tab replaces the first wholesale |
| TabState.OnTabRemoved | js/driver.js:20-22 | tab removal sets that tab's entry to null, keeps it, and leaves the other tabs unchanged |
| TabState.TabRemovalIsIdempotent | js/driver.js:20-22 | removing twice equals removing once; a removed tab reads null, a tab never seen reads undefined |
| TabState.TabCacheEntry | js/driver.js:222 | `tabCache[id]` reads undefined exactly for a tab never seen, null exactly for a closed one, and `{detected}` otherwise; `TabRemovalIsIdempotent` and `GetAppsAfterTabClosed` state its values after removal |
| TabState.DisplayAfterRemovalRecreates | js/driver.js:305-313 | a detection arriving after its tab closed re-creates the entry instead of failing |
| TabState.AddUrlToRequestCache | js/driver.js:265-275 | an undefined entry gets a new list, the URL is appended at the end, and the other tabs are unchanged; a null entry throws |
| TabState.GetUrlCache | js/driver.js:276-280 | an unknown tab yields `{}`, a cleared one `null`, otherwise the recorded URLs in order |
| TabState.GetUrlCacheAfterReplay | js/driver.js:276-290 | after any request stream from the empty cache, a tab that made no request reads `{}` and any other tab reads exactly its URLs in arrival order |
| TabState.ClearRequestCache | js/driver.js:281-283 | the tab's entry becomes null and the other tabs are unchanged |
| TabState.AddAfterClearThrows | js/driver.js:265-283 | recording a URL for a cleared tab throws |
| TabState.Replay | js/driver.js:285-290 | the `onBeforeRequest` listener over any stream of requests, each its own call, so one that throws on a `null` entry changes nothing: no entry disappears, a `null` entry stays `null`, and every list only grows at its end; `ReplayAppendsPerTab` gives its exact contents |
| TabState.ReplayAppendsPerTab | js/driver.js:265-290 | from any cache, an entry exists afterwards exactly when it existed or its tab made a request; a `null` entry stays `null`; every other tab's list becomes its old list followed by exactly that tab's URLs in arrival order |
| TabState.ReplayRecordsInOrder | js/driver.js:265-290 | from an empty cache, each tab's list is exactly its URLs in arrival order, and tabs with no request have no entry |
| TabState.ClearedTabDoesNotBlockOthers | js/driver.js:265-290 | after `clearRequestCache` on one tab, a request stream leaves that tab's entry `null`; every other tab has an entry afterwards exactly when it had one or made a request, and, unless it was itself cleared, its list is its old list followed by its URLs in arrival order |
| TabState.CloseTab | js/driver.js:20-22 | closing a tab leaves every recorded URL in place and makes that tab's detection read null |
| Robots.GetRobotsTxt | js/driver.js:327-332 | a queued host returns its pending promise with nothing changed; otherwise a fresh promise is queued under the host only, and nothing is fetched or stored |
| Robots.InitSatisfiesInv | js/driver.js:18 | the empty queue with no promises is well formed, the base case for every run |
| Robots.CallJoinsPendingPromise | js/driver.js:328-330 | while a host's promise is queued, a call hands back that same promise and starts no work |
| Robots.SecondCallSharesPromise | js/driver.js:327-332 | two calls in a row for a host share one promise, and at most one promise is created |
| Robots.AfterTracking | js/driver.js:333-341 | the tracking continuation goes on to the cache read exactly when the value is truthy; it leaves every other promise, the queue, storage and the fetch log unchanged; `TrackingOffResolvesEmpty` and `TrackingReadAlwaysProceeds` give its results |
| Robots.AfterCacheRead | js/driver.js:341-353 | the cache continuation extends the fetch log exactly when the cache is an object lacking the host, and gets stuck exactly when the cache is not an object; it never writes storage and leaves every other promise unchanged; `CacheHitResolvesCachedRules` and `CacheMissStartsFetch` give its results |
| Robots.AfterBody | js/driver.js:354-364 | the body continuation finishes its promise; a read body writes a cache object whose hosts are the snapshot's plus this host, and a failed read writes nothing; every other promise is unchanged; `OkStoresParseOfBody`, `NonOkStoresParseOfEmpty` and `LastWriterWins` give its contents |
| Robots.Step | js/driver.js:327-370 | no event forgets a promise or reuses a handle; only a body read writes storage and only a cache read fetches; `StepOnOneOp`, `StepKeepsInv` and `FetchOnlyOnCacheMiss` specify each event |
| Robots.TrackingReadOp | js/driver.js:333-341 | the tracking read rewrites only its own promise, forward, keeping any resolved value, with no queue or fetch change |
| Robots.CacheReadOp | js/driver.js:341-353 | the cache read rewrites only its own promise, forward, and the fetch log grows only when that promise starts fetching, by its robots.txt URL |
| Robots.BodyReadOp | js/driver.js:354-364 | the body read rewrites only its own promise, forward, keeping any resolved value, with no queue or fetch change |
| Robots.StepOnOneOp | js/driver.js:327-373 | an event other than a call rewrites only its own promise's record: it keeps the host, never moves the stage back, never changes a value already resolved, and stays well formed; only settling removes a queue entry (its host's), and only a cache miss appends to the fetch log |
| Robots.StepKeepsInv | js/driver.js:327-373 | every event keeps the queue well formed: each queued host maps to its one unsettled promise, and a promise settles only after resolving |
| Robots.ResolvedValueIsFinal | js/driver.js:332-369 | once a promise has resolved, no event changes its value, so every caller sharing it sees the same value |
| Robots.FetchOnlyOnCacheMiss | js/driver.js:341-353 | stages only move forward, and the fetch log grows only when a cache read misses, by that host's robots.txt URL |
| Robots.RobotsUrlShape | js/driver.js:353 | the URL starts with `https://` exactly when `secure`, and consists of the host followed by `/robots.txt` |
| Robots.SettleRemovesOnlyItsHost | js/driver.js:370 | settling deletes exactly the settling promise's own host entry from the queue and writes nothing |
| Robots.CallAfterSettleStartsFresh | js/driver.js:327-370 | after settling, the next call for the host gets a new promise |
| Robots.TrackingOffResolvesEmpty | js/driver.js:333-339 | a falsy tracking value resolves `[]` with no fetch, no storage write and no queue change |
| Robots.TrackingReadAlwaysProceeds | js/driver.js:333-341 | a successful tracking read always goes on to the cache read, unresolved and without writing storage |
| Robots.CacheHitResolvesCachedRules | js/driver.js:341-349 | a host in the stored robots cache resolves its cached rules with no fetch and no write |
| Robots.CacheMissStartsFetch | js/driver.js:341-353 | a host missing from the stored cache arms the timer and fetches its robots.txt URL, writing nothing yet |
| Robots.NonOkStoresParseOfEmpty | js/driver.js:354-364 | a non-ok response stores the parse of `''` under the host and resolves it, unless already resolved |
| Robots.OkStoresParseOfBody | js/driver.js:354-364 | an ok response stores the parse of the body under the host in storage and mirror, and resolves it unless already resolved |
| Robots.FetchErrorResolvesEmpty | js/driver.js:366 | a fetch error resolves `[]` and writes nothing |
| Robots.LateSuccessAfterTimeoutStillWrites | js/driver.js:351-364 | after a timeout, the promise keeps `[]`, and a later success still writes the parsed rules to storage |
| Robots.LastWriterWins | js/driver.js:341-362 | a completing fetch writes back its own snapshot, dropping any host missing from that snapshot |
| Robots.FreshCallAwaitsCache | js/driver.js:327-341 | a call for an unqueued host, then its tracking read, queues a new promise under the host that awaits the cache read, with no fetch, no write and every older promise unchanged |
| Robots.CacheReadMissFetches | js/driver.js:341-353 | with no robots cache stored, the cache read of an awaiting promise arms its timer and appends its robots.txt URL to the fetch log, leaving the queue, storage and other promises unchanged |
| Robots.FreshCallFetches | js/driver.js:327-353 | with no robots cache stored, a call for an unqueued host followed by its two option reads leaves one new promise fetching and unsettled, queued under the host, and one URL more in the fetch log |
| Robots.TimeoutThenSettle | js/driver.js:351-370 | when the timer of a fetching promise fires and the promise settles, its host leaves the queue while its fetch is still outstanding, with no write and no new fetch |
| Robots.FetchTimeoutSettle | js/driver.js:327-370 | a fresh call whose fetch times out and settles leaves the host unqueued, its promise still fetching, and the URL fetched once |
| Robots.FetchAgainAfter | js/driver.js:327-353 | after any run that leaves the host unqueued and its promise fetching, a fresh call for the host fetches the same URL a second time |
| Robots.SecondFetchAfterTimeout | js/driver.js:327-370 | a call, its timeout and settling, then a second call for the same host: the first fetch is still outstanding while the second promise fetches the same robots.txt URL again, so single flight is broken |
| Robots.SecondFetchFromInit | js/driver.js:18-370 | from the empty queue with no robots cache stored, that sequence puts the same URL in the fetch log twice while promise 0 is still fetching |
| Robots.StuckPromiseNeverSettles | js/driver.js:333-370 | after a rejected option read, no run of events resolves the promise or frees the host's queue entry, and every later call gets that promise |
| Messages.OnMessage | js/driver.js:191-254 | returns true whenever it returns, and throws only for `get_apps` without a tab; sendResponse is called exactly when the id is defined; the payload is defined only for `get_apps` and `get_js_patterns`; only `analyze` and `set_option` write options; unknown ids change nothing; the tab tables are never changed; the `get_apps` payload has exactly the eleven fields sent (tab entry, apps, categories, pinned category, the five extended-only fields, the tab's URL cache, page HTML) and no `categoryOrder` |
| Messages.Dispatch | js/driver.js:200-248 | the switch fails exactly for `get_apps` without a tab; otherwise it yields a `Dispatched` record (response, effects, driver state), and only `analyze` and `set_option` give a changed driver state |
| Messages.SetOptionMessageReadsBack | js/driver.js:237-240 | after a `set_option` message, reading that option yields the value if it is truthy and the default otherwise |
| Messages.GetAppsAfterTabClosed | js/driver.js:220-233 | after a tab closes, `get_apps` reports `tabCache: null` and still hands out the tab's recorded URLs |
| Messages.GetAppsBeforeExtendedLoads | js/driver.js:220-233 | before the extended document loads, `get_apps` sends undefined for every extended-only field |

## Left out

- Headers.GroupHeaders: lower-cases ASCII letters only. `toLowerCase` uses full Unicode case mapping, and header names are ASCII tokens in practice.
- Network I/O: the fetches of `apps.json`, `extended_apps.json` and `robots.txt` appear only as outcome values. `post` and `ping` telemetry is not modelled.
- Browser APIs are not modelled: `tabs.query`, `tabs.create` (`openTab`), `executeScript`, `cookies.getAll` and `pageAction.show`. `storage.local` is a map whose writes always take effect.
- The detection engine is not modelled: `analyze`, `parseUrl`, `parseRobotsTxt`, `parseJsPatterns`, `cacheDetectedAds` and `log`. Calls into it are recorded as effects; the robots parser is a function parameter.
- The version check (js/driver.js:123-138) is left out. It depends on JavaScript's coercion of a version string compared with the float `4.0`.
- The 3000 ms timer has no real time. It is an event that may fire at any point while armed.
- Promise scheduling is left out. Each continuation is one atomic event, and `finally` is its own event after resolution.
- Numbers are integers. Floating-point priorities and NaN comparator results are not modelled.
- Category ids are natural numbers stored under their decimal keys. Keys that `parseInt` would read differently (`"01"`, `"1a"`) are not modelled.
- Inherited properties in the other objects are not modelled. This covers a host named like an `Object.prototype` property in the robots cache `in` test, and `__proto__` keys in `Object.assign`. The header listener does model them.
- A truthy non-object under `robotsTxtCache` is treated as making the `in` test throw. That matches strings, numbers and booleans. An array would not throw in JavaScript.
- Logging and `console` output are left out. The `wappalyzer.driver.document` assignment and the `networkFilters` constant are left out too.

=== FILE: definitions.dfy ===
/**
 * The definition loader: choosing the source of `apps.json`, `readApps`
 * merging the extended definitions into the primary ones, and the derived
 * `categoryOrder`.
 */
module Definitions {
  import opened Wrappers
  import opened JsValues

  /** A category of the definition set; only its priority matters to the driver. */
  datatype Category = Category(name: JsValue, priority: int)

  /** Technology id to its (opaque) definition. */
  type Apps = map<string, JsValue>

  /** Category id to category; the JSON keys are the decimal numerals of the ids. */
  type Categories = map<nat, Category>

  /** The parts of `apps.json` the driver reads. */
  datatype PrimaryJson = PrimaryJson(apps: Apps, categories: Categories)

  /** The parts of `extended_apps.json` the driver reads. */
  datatype ExtendedJson = ExtendedJson(
    apps: Apps,
    supported: JsValue,
    incompatible: JsValue,
    conversionCategoryTooltips: JsValue,
    technologyTooltips: JsValue,
    conversionPatterns: JsValue)

  /** The fields of the engine that only the extended document supplies. */
  datatype ExtendedFields = ExtendedFields(
    supportedApps: JsValue,
    incompatibleApps: JsValue,
    catTooltips: JsValue,
    techTooltips: JsValue,
    convertableApps: JsValue,
    trackedUrls: JsValue)

  /** The loaded definition set; `None` fields are still `undefined` on the engine. */
  datatype Definitions = Definitions(
    apps: Option<Apps>,
    categories: Option<Categories>,
    categoryOrder: seq<nat>,
    extended: Option<ExtendedFields>)

  /** Before anything is loaded: no apps, no categories, `categoryOrder = []`. */
  const Unloaded: Definitions := Definitions(None, None, [], None)

  /** How a fetch ended: a response with `ok` set and its parsed body (`None` if parsing failed), a non-ok response, or a network error. */
  datatype Fetched<T> = FetchOk(json: Option<T>) | FetchNotOk | FetchError

  /**
   * Which `apps.json` reaches `readApps`. Only a non-ok response of the remote
   * source falls back to the bundled copy (`local`, `None` when that fetch or
   * parse fails); a network error is only logged and nothing is read.
   */
  function PrimarySource(remote: Fetched<PrimaryJson>, local: Option<PrimaryJson>): (r: Option<PrimaryJson>)
    ensures r.Some? ==> (remote.FetchOk? && remote.json == r) || (remote.FetchNotOk? && local == r)
    ensures remote.FetchError? ==> r.None?
    ensures remote.FetchNotOk? ==> r == local
    ensures remote.FetchOk? ==> r == remote.json
  {
    match remote
    case FetchOk(json) => json
    case FetchNotOk => local
    case FetchError => None
  }

  /**
   * When the remote `apps.json` cannot be used and the bundled copy loads,
   * the bundled copy is read exactly when the remote answered with a non-ok
   * status; after a network error nothing is read at all.
   */
  lemma PrimaryFallbackOnlyOnNonOk(remote: Fetched<PrimaryJson>, local: Option<PrimaryJson>)
    requires !remote.FetchOk? && local.Some?
    ensures PrimarySource(remote, local) == local <==> remote.FetchNotOk?
    ensures remote.FetchError? ==> PrimarySource(remote, local).None?
  {
  }

  /**
   * `Object.assign(target, source)` for plain data: each own property of
   * `source` is copied onto `target` in turn.
   */
  method Assign(target: Apps, source: Apps) returns (r: Apps)
    ensures r.Keys == target.Keys + source.Keys
    ensures forall k :: k in source ==> r[k] == source[k]
    ensures forall k :: k in target && k !in source ==> r[k] == target[k]
  {
    r := target;
    var pending := source.Keys;
    while pending != {}
      invariant pending <= source.Keys
      invariant r.Keys == target.Keys + (source.Keys - pending)
      invariant forall k :: k in source.Keys - pending ==> r[k] == source[k]
      invariant forall k :: k in target && k !in source.Keys - pending ==> r[k] == target[k]
      decreases pending
    {
      var k :| k in pending;
      r := r[k := source[k]];
      pending := pending - {k};
    }
  }

  /** `Object.assign({}, primary, extended)`: every key of both, the extended entry winning on a collision. */
  method MergeApps(primary: Apps, extended: Apps) returns (r: Apps)
    ensures r.Keys == primary.Keys + extended.Keys
    ensures forall k :: k in extended ==> r[k] == extended[k]
    ensures forall k :: k in primary && k !in extended ==> r[k] == primary[k]
  {
    var copy := Assign(map[], primary);
    r := Assign(copy, extended);
  }

  /** `m` is the least element of `s`. */
  predicate IsMin(m: nat, s: set<nat>) {
    m in s && forall y :: y in s ==> m <= y
  }

  lemma {:induction false} MinExists(s: set<nat>)
    requires s != {}
    ensures exists m :: IsMin(m, s)
    decreases s
  {
    var x :| x in s;
    if s == {x} {
      assert IsMin(x, s);
    } else {
      var rest := s - {x};
      MinExists(rest);
      var m :| IsMin(m, rest);
      var w := if x < m then x else m;
      forall y | y in s
        ensures w <= y
      {
        if y != x {
          assert y in rest;
        }
      }
      assert IsMin(w, s);
    }
  }

  function Min(s: set<nat>): (m: nat)
    requires s != {}
    ensures IsMin(m, s)
  {
    MinExists(s);
    var m :| IsMin(m, s);
    m
  }

  /** `Object.keys` of an object whose keys are all array indices: ascending numeric order. */
  function ObjectKeys(s: set<nat>): (r: seq<nat>)
    ensures |r| == |s|
    ensures forall x :: x in r <==> x in s
    ensures forall i, j :: 0 <= i < j < |r| ==> r[i] < r[j]
    decreases s
  {
    if s == {} then []
    else
      var m := Min(s);
      [m] + ObjectKeys(s - {m})
  }

  /** Category `a` is listed before category `b`: lower priority first, ties by ascending id. */
  predicate Before(cats: Categories, a: nat, b: nat)
    requires a in cats && b in cats
  {
    cats[a].priority < cats[b].priority || (cats[a].priority == cats[b].priority && a < b)
  }

  /** `r` lists known categories strictly in `Before` order (so without repetition). */
  predicate Ranked(cats: Categories, r: seq<nat>) {
    && (forall i :: 0 <= i < |r| ==> r[i] in cats)
    && (forall i, j :: 0 <= i < j < |r| ==> Before(cats, r[i], r[j]))
  }

  /** One step of a stable sort by priority: `x`, which came first, goes before every entry of no smaller priority. */
  function InsertStable(cats: Categories, x: nat, sorted: seq<nat>): (r: seq<nat>)
    requires x in cats
    requires forall i :: 0 <= i < |sorted| ==> sorted[i] in cats
    ensures multiset(r) == multiset(sorted) + multiset{x}
    ensures forall i :: 0 <= i < |r| ==> r[i] in cats
    ensures forall i :: 0 <= i < |r| ==> r[i] == x || r[i] in sorted
  {
    if |sorted| == 0 then [x]
    else if cats[x].priority <= cats[sorted[0]].priority then [x] + sorted
    else
      var rest := InsertStable(cats, x, sorted[1..]);
      assert sorted == [sorted[0]] + sorted[1..];
      [sorted[0]] + rest
  }

  /**
   * `ids.sort((a, b) => priority(a) - priority(b))`: ECMAScript requires the
   * sort to be stable, so entries of equal priority keep their input order.
   */
  function StableSortByPriority(cats: Categories, ids: seq<nat>): (r: seq<nat>)
    requires forall i :: 0 <= i < |ids| ==> ids[i] in cats
    ensures multiset(r) == multiset(ids)
    ensures forall i :: 0 <= i < |r| ==> r[i] in cats
  {
    if |ids| == 0 then []
    else
      assert ids == [ids[0]] + ids[1..];
      InsertStable(cats, ids[0], StableSortByPriority(cats, ids[1..]))
  }

  /** Putting an id that goes before every entry in front of a ranked list keeps it ranked. */
  lemma RankedCons(cats: Categories, a: nat, r: seq<nat>)
    requires a in cats && Ranked(cats, r)
    requires forall j :: 0 <= j < |r| ==> Before(cats, a, r[j])
    ensures Ranked(cats, [a] + r)
  {
  }

  /** Inserting an id smaller than every sorted id keeps the list ranked. */
  lemma {:induction false} InsertStableRanked(cats: Categories, x: nat, sorted: seq<nat>)
    requires x in cats && Ranked(cats, sorted)
    requires forall i :: 0 <= i < |sorted| ==> x < sorted[i]
    ensures Ranked(cats, InsertStable(cats, x, sorted))
    decreases |sorted|
  {
    if |sorted| == 0 {
      assert InsertStable(cats, x, sorted) == [x];
    } else if cats[x].priority <= cats[sorted[0]].priority {
      forall j | 0 <= j < |sorted|
        ensures Before(cats, x, sorted[j])
      {
        if j > 0 {
          assert Before(cats, sorted[0], sorted[j]);
        }
      }
      RankedCons(cats, x, sorted);
    } else {
      var tail := sorted[1..];
      assert Ranked(cats, tail) by {
        forall i, j | 0 <= i < j < |tail|
          ensures Before(cats, tail[i], tail[j])
        {
          assert tail[i] == sorted[i + 1] && tail[j] == sorted[j + 1];
        }
      }
      InsertStableRanked(cats, x, tail);
      var rest := InsertStable(cats, x, tail);
      forall j | 0 <= j < |rest|
        ensures Before(cats, sorted[0], rest[j])
      {
        if rest[j] != x {
          var k :| 0 <= k < |tail| && tail[k] == rest[j];
          assert sorted[k + 1] == rest[j];
        }
      }
      RankedCons(cats, sorted[0], rest);
      assert InsertStable(cats, x, sorted) == [sorted[0]] + rest;
    }
  }

  /** Stably sorting ids given in ascending order ranks them by priority, then id. */
  lemma {:induction false} StableSortOfAscendingIsRanked(cats: Categories, ids: seq<nat>)
    requires forall i :: 0 <= i < |ids| ==> ids[i] in cats
    requires forall i, j :: 0 <= i < j < |ids| ==> ids[i] < ids[j]
    ensures Ranked(cats, StableSortByPriority(cats, ids))
    decreases |ids|
  {
    if |ids| > 0 {
      var tail := ids[1..];
      StableSortOfAscendingIsRanked(cats, tail);
      var sorted := StableSortByPriority(cats, tail);
      forall i | 0 <= i < |sorted|
        ensures ids[0] < sorted[i]
      {
        assert sorted[i] in multiset(tail);
        var k :| 0 <= k < |tail| && tail[k] == sorted[i];
        assert ids[k + 1] == sorted[i];
      }
      InsertStableRanked(cats, ids[0], sorted);
    }
  }

  /**
   * `categoryOrder`: the category ids, sorted by ascending priority; ids of
   * equal priority stay in the ascending order `Object.keys` gives them.
   */
  function CategoryOrder(cats: Categories): (r: seq<nat>)
    ensures |r| == |cats|
    ensures forall id :: id in r <==> id in cats
    ensures Ranked(cats, r)
  {
    var ids := ObjectKeys(cats.Keys);
    StableSortOfAscendingIsRanked(cats, ids);
    var r := StableSortByPriority(cats, ids);
    assert forall id :: id in r <==> id in multiset(ids);
    r
  }

  /** Two ranked listings of the same categories are the same listing. */
  lemma {:induction false} RankedIsUnique(cats: Categories, a: seq<nat>, b: seq<nat>)
    requires Ranked(cats, a) && Ranked(cats, b)
    requires forall id :: id in a <==> id in b
    ensures a == b
    decreases |a|
  {
    assert |a| > 0 ==> a[0] in a;
    assert |b| > 0 ==> b[0] in b;
    if |a| > 0 && |b| > 0 {
      if a[0] != b[0] {
        assert false;
      }
      forall id
        ensures id in a[1..] <==> id in b[1..]
      {
        if id in a[1..] {
          var k :| 1 <= k < |a| && a[k] == id;
          assert Before(cats, a[0], id);
          assert id in b;
        }
        if id in b[1..] {
          var k :| 1 <= k < |b| && b[k] == id;
          assert Before(cats, b[0], id);
          assert id in a;
        }
      }
      RankedIsUnique(cats, a[1..], b[1..]);
      assert a == [a[0]] + a[1..];
      assert b == [b[0]] + b[1..];
    } else if |a| > 0 {
      assert false;
    } else if |b| > 0 {
      assert false;
    }
  }

  /** Categories 1 (priority 5) and 2 (priority 1) are ordered `[2, 1]`. */
  lemma CategoryOrderExample(cats: Categories)
    requires cats.Keys == {1, 2} && cats[1].priority == 5 && cats[2].priority == 1
    ensures CategoryOrder(cats) == [2, 1]
  {
    RankedPairExample(cats, CategoryOrder(cats));
  }

  lemma RankedPairExample(cats: Categories, r: seq<nat>)
    requires cats.Keys == {1, 2} && cats[1].priority == 5 && cats[2].priority == 1
    requires |r| == 2 && Ranked(cats, r) && forall id :: id in r <==> id in cats
    ensures r == [2, 1]
  {
  }

  /**
   * `readApps(json)`: apps and categories come from the primary document.
   * When `extended_apps.json` loads, its apps override the primary ones,
   * `categoryOrder` is computed and the extended-only fields are set, with
   * `tracked_urls` empty; when it fails, only the error is logged.
   */
  method ReadApps(primary: PrimaryJson, extended: Option<ExtendedJson>) returns (d: Definitions)
    ensures d.categories == Some(primary.categories)
    ensures extended.None? ==> d == Definitions(Some(primary.apps), Some(primary.categories), [], None)
    ensures extended.Some? ==> d.apps.Some?
    ensures extended.Some? ==> d.apps.value.Keys == primary.apps.Keys + extended.value.apps.Keys
    ensures extended.Some? ==> forall k :: k in extended.value.apps ==> d.apps.value[k] == extended.value.apps[k]
    ensures extended.Some? ==> forall k :: k in primary.apps && k !in extended.value.apps ==>
              d.apps.value[k] == primary.apps[k]
    ensures extended.Some? ==> |d.categoryOrder| == |primary.categories| && Ranked(primary.categories, d.categoryOrder)
    ensures extended.Some? ==> forall id :: id in d.categoryOrder <==> id in primary.categories
    ensures extended.Some? ==> d.extended == Some(ExtendedFields(
              extended.value.supported, extended.value.incompatible,
              extended.value.conversionCategoryTooltips, extended.value.technologyTooltips,
              extended.value.conversionPatterns, Obj(map[])))
  {
    d := Definitions(Some(primary.apps), Some(primary.categories), Unloaded.categoryOrder, Unloaded.extended);
    if extended.Some? {
      var ext := extended.value;
      var apps := MergeApps(primary.apps, ext.apps);
      d := Definitions(
        Some(apps), Some(primary.categories), CategoryOrder(primary.categories),
        Some(ExtendedFields(ext.supported, ext.incompatible, ext.conversionCategoryTooltips,
                            ext.technologyTooltips, ext.conversionPatterns, Obj(map[]))));
    }
  }

  /** Primary `{A: 1}` merged with extended `{A: 2, B: 3}` gives `A` the extended entry and keeps `B`. */
  method MergeExample() returns (r: Apps)
    ensures r == map["A" := Num(2), "B" := Num(3)]
  {
    r := MergeApps(map["A" := Num(1)], map["A" := Num(2), "B" := Num(3)]);
  }
}

=== FILE: headers.dfy ===
/**
 * The `webRequest.onCompleted` listener: response headers of a main-frame
 * request are grouped by lower-cased name (HTTP field names are
 * case-insensitive, section 5.1 of RFC 9110; repeated fields keep their
 * order, section 5.3 of RFC 9110), and the detection engine is invoked when
 * the first `content-type` value names an HTML document.
 */
module Headers {
  import opened Wrappers
  import opened JsValues

  /** One entry of `responseHeaders`: a name and either a text or a binary value. */
  datatype Header = Header(name: string, value: JsValue, binaryValue: JsValue)

  /** The grouped header bundle: lower-cased name to the values seen under it. */
  type HeaderMap = map<string, seq<string>>

  /**
   * The property names a plain object inherits from `Object.prototype` that a
   * lower-cased header name can spell. For such a name `headers[name] || []`
   * yields the inherited constructor or prototype object, which has no
   * `push`, so `headers[name].push` throws a TypeError inside the
   * `tabs.query` callback; the `.catch` only logs it and that response is
   * never analysed. The other inherited names
   * (`hasOwnProperty`, `toString`, ...) contain capitals and are never a key.
   */
  const InheritedKeys: set<string> := {"__proto__", "constructor"}

  /** The text stored for one header: `(value || binaryValue || '').toString()`. */
  function HeaderText(h: Header): string {
    ToStr(Or(Or(h.value, h.binaryValue), Str("")))
  }

  /** The key a header is filed under. */
  function Key(h: Header): string {
    ToLower(h.name)
  }

  /** Reference definition: the texts of the headers filed under `k`, in input order. */
  function ValuesFor(hs: seq<Header>, k: string): seq<string>
    decreases |hs|
  {
    if |hs| == 0 then []
    else ValuesFor(hs[..|hs| - 1], k) + (if Key(hs[|hs| - 1]) == k then [HeaderText(hs[|hs| - 1])] else [])
  }

  /** True when some header would be filed under an inherited property name. */
  predicate HasInheritedKey(hs: seq<Header>) {
    exists i :: 0 <= i < |hs| && Key(hs[i]) in InheritedKeys
  }

  /** No header is filed under `k` exactly when `k` collects no values. */
  lemma {:induction false} ValuesForEmpty(hs: seq<Header>, k: string)
    ensures ValuesFor(hs, k) == [] <==> forall i :: 0 <= i < |hs| ==> Key(hs[i]) != k
    decreases |hs|
  {
    if |hs| > 0 {
      var init := hs[..|hs| - 1];
      ValuesForEmpty(init, k);
      assert forall i :: 0 <= i < |init| ==> init[i] == hs[i];
    }
  }

  /**
   * The `forEach` over `responseHeaders`: every header name becomes a
   * lower-case key whose list holds that name's values in arrival order.
   * `None` stands for the TypeError thrown on an inherited property name.
   */
  method GroupHeaders(hs: seq<Header>) returns (r: Option<HeaderMap>)
    ensures r.None? <==> HasInheritedKey(hs)
    ensures r.Some? ==> forall k :: k in r.value <==> ValuesFor(hs, k) != []
    ensures r.Some? ==> forall k :: k in r.value ==> r.value[k] == ValuesFor(hs, k)
    ensures r.Some? ==> forall k :: k in r.value ==> IsLowerCase(k)
  {
    var m: HeaderMap := map[];
    var i := 0;
    while i < |hs|
      invariant 0 <= i <= |hs|
      invariant forall j :: 0 <= j < i ==> Key(hs[j]) !in InheritedKeys
      invariant forall k :: k in m ==> m[k] == ValuesFor(hs[..i], k) && |m[k]| > 0
      invariant forall k :: k !in m ==> ValuesFor(hs[..i], k) == []
    {
      var name := Key(hs[i]);
      if name in InheritedKeys {
        return None;
      }
      var prev := if name in m then m[name] else [];
      m := m[name := prev + [HeaderText(hs[i])]];
      assert hs[..i + 1][..i] == hs[..i];
      i := i + 1;
    }
    assert hs[..i] == hs;
    forall k | k in m
      ensures IsLowerCase(k)
    {
      ValuesForEmpty(hs, k);
      var j :| 0 <= j < |hs| && Key(hs[j]) == k;
      ToLowerIsLowerAndIdempotent(hs[j].name);
    }
    r := Some(m);
  }

  /** `s` holds `p` starting at position `i`. */
  predicate OccursAt(s: string, i: nat, p: string) {
    i + |p| <= |s| && s[i..i + |p|] == p
  }

  /** The language of the regular expression `/\/x?html/`: `/html` or `/xhtml` occurs somewhere in `s`. */
  predicate NamesHtml(s: string) {
    exists i: nat :: i <= |s| && (OccursAt(s, i, "/html") || OccursAt(s, i, "/xhtml"))
  }

  /** `/\/x?html/.test(s)`, scanning from the left. */
  function TestHtml(s: string): (r: bool)
    ensures r <==> NamesHtml(s)
    decreases |s|
  {
    if |s| == 0 then false
    else if OccursAt(s, 0, "/html") || OccursAt(s, 0, "/xhtml") then true
    else
      NamesHtmlUnfold(s);
      TestHtml(s[1..])
  }

  /** A match either starts at the first character or lies wholly in the rest. */
  lemma NamesHtmlUnfold(s: string)
    requires |s| > 0
    ensures NamesHtml(s) <==> OccursAt(s, 0, "/html") || OccursAt(s, 0, "/xhtml") || NamesHtml(s[1..])
  {
    forall i: nat, p: string | 0 < i
      ensures OccursAt(s, i, p) == OccursAt(s[1..], i - 1, p)
    {
      if i + |p| <= |s| {
        var a, b := s[i..i + |p|], s[1..][i - 1..i - 1 + |p|];
        forall t | 0 <= t < |p|
          ensures a[t] == b[t]
        {
          assert a[t] == s[i + t] && b[t] == s[1..][i - 1 + t];
        }
        assert a == b;
      }
    }
    if NamesHtml(s) {
      var i: nat :| i <= |s| && (OccursAt(s, i, "/html") || OccursAt(s, i, "/xhtml"));
      if 0 < i {
        assert i - 1 <= |s[1..]| && (OccursAt(s[1..], i - 1, "/html") || OccursAt(s[1..], i - 1, "/xhtml"));
      }
    }
    if NamesHtml(s[1..]) {
      var i: nat :| i <= |s[1..]| && (OccursAt(s[1..], i, "/html") || OccursAt(s[1..], i, "/xhtml"));
      assert OccursAt(s, i + 1, "/html") || OccursAt(s, i + 1, "/xhtml");
    }
  }

  /** The browser tab a request was matched to. */
  datatype Tab = Tab(id: int, url: string)

  /** A completed request as the listener receives it; `responseHeaders` may be absent. */
  datatype Request = Request(url: string, responseHeaders: Option<seq<Header>>)

  /** The call `wappalyzer.analyze(url, { headers }, { tab })` the listener makes. */
  datatype AnalyzeCall = AnalyzeCall(url: string, headers: HeaderMap, tab: Tab)

  /**
   * The `onCompleted` listener. `tabs` is what `tabs.query` delivered for the
   * request's URL, `None` when the query failed (the error is only logged).
   * The first matching tab is used; no tab means no effect.
   */
  method OnCompleted(request: Request, tabs: Option<seq<Tab>>) returns (call: Option<AnalyzeCall>)
    ensures call.Some? <==>
      && request.responseHeaders.Some?
      && tabs.Some? && |tabs.value| > 0
      && !HasInheritedKey(request.responseHeaders.value)
      && var cts := ValuesFor(request.responseHeaders.value, "content-type");
         |cts| > 0 && NamesHtml(cts[0])
    ensures call.Some? ==> call.value.tab == tabs.value[0] && call.value.url == request.url
    ensures call.Some? ==> forall k :: k in call.value.headers <==> ValuesFor(request.responseHeaders.value, k) != []
    ensures call.Some? ==> forall k :: k in call.value.headers ==>
              call.value.headers[k] == ValuesFor(request.responseHeaders.value, k)
  {
    call := None;
    if request.responseHeaders.None? || tabs.None? || |tabs.value| == 0 {
      return;
    }
    var hs := request.responseHeaders.value;
    var grouped := GroupHeaders(hs);
    if grouped.None? {
      return;
    }
    var headers := grouped.value;
    if "content-type" in headers && TestHtml(headers["content-type"][0]) {
      call := Some(AnalyzeCall(request.url, headers, tabs.value[0]));
    }
  }
}

=== FILE: js_values.dfy ===
/** Optional values, used wherever the driver may or may not have something. */
module Wrappers {

  datatype Option<+T> = None | Some(value: T)
}

/**
 * The fragment of JavaScript values the driver handles: what storage, JSON
 * documents and browser events deliver. Numbers are integers here.
 */
module JsValues {

  datatype JsValue =
    | Undefined
    | Null
    | Bool(b: bool)
    | Num(n: int)
    | Str(s: string)
    | Arr(elems: seq<JsValue>)
    | Obj(props: map<string, JsValue>)

  /** ECMAScript ToBoolean: undefined, null, false, 0 and "" are falsy, every object is truthy. */
  predicate Truthy(v: JsValue) {
    match v
    case Undefined => false
    case Null => false
    case Bool(b) => b
    case Num(n) => n != 0
    case Str(s) => s != ""
    case Arr(_) => true
    case Obj(_) => true
  }

  /** The value of the expression `a || b`. */
  function Or(a: JsValue, b: JsValue): JsValue {
    if Truthy(a) then a else b
  }

  /** Reading property `k` of a plain object: `undefined` when it is missing. */
  function Get(o: map<string, JsValue>, k: string): JsValue {
    if k in o then o[k] else Undefined
  }

  function DigitChar(d: nat): char
    requires d < 10
  {
    "0123456789"[d]
  }

  function NatToDecimal(n: nat): string
    decreases n
  {
    if n < 10 then [DigitChar(n)] else NatToDecimal(n / 10) + [DigitChar(n % 10)]
  }

  /** `Array.prototype.join` with the default separator. */
  function JoinWithCommas(parts: seq<string>): string {
    if |parts| == 0 then ""
    else if |parts| == 1 then parts[0]
    else parts[0] + "," + JoinWithCommas(parts[1..])
  }

  /**
   * ECMAScript ToString, which is also how a value becomes a property key:
   * an array joins its elements (undefined and null elements becoming ""),
   * a plain object prints as "[object Object]".
   */
  function ToStr(v: JsValue): string
    decreases v
  {
    match v
    case Undefined => "undefined"
    case Null => "null"
    case Bool(b) => if b then "true" else "false"
    case Num(n) => if n < 0 then "-" + NatToDecimal(-n) else NatToDecimal(n)
    case Str(s) => s
    case Arr(es) =>
      JoinWithCommas(seq(|es|, i requires 0 <= i < |es| =>
                               if es[i].Undefined? || es[i].Null? then "" else ToStr(es[i])))
    case Obj(_) => "[object Object]"
  }

  /** `String.prototype.toLowerCase` on one character; only ASCII letters are mapped. */
  function LowerChar(c: char): char {
    if 'A' <= c <= 'Z' then (c as int + 32) as char else c
  }

  function ToLower(s: string): (r: string)
    ensures |r| == |s|
    ensures forall i :: 0 <= i < |s| ==> r[i] == LowerChar(s[i])
  {
    seq(|s|, i requires 0 <= i < |s| => LowerChar(s[i]))
  }

  predicate IsLowerCase(s: string) {
    forall i :: 0 <= i < |s| ==> !('A' <= s[i] <= 'Z')
  }

  /** Lower-casing yields a string without upper-case letters, and lower-casing it again changes nothing. */
  lemma ToLowerIsLowerAndIdempotent(s: string)
    ensures IsLowerCase(ToLower(s))
    ensures ToLower(ToLower(s)) == ToLower(s)
  {
  }
}

=== FILE: messages.dfy ===
/**
 * The `runtime.onMessage` listener: content scripts and the popup send a
 * message whose `id` names an operation; a defined `id` gets exactly one
 * `sendResponse` call, and the listener always returns `true`.
 */
module Messages {
  import opened Wrappers
  import opened JsValues
  import opened OptionStore
  import opened TabState
  import opened Headers
  import Definitions

  /** The fields of a message the listener reads. */
  datatype Message = Message(id: JsValue, subject: JsValue, source: JsValue, key: JsValue, value: JsValue, tab: JsValue)

  /**
   * The driver state the listener reads or writes, with the parts of the
   * detection engine it hands out (`hostnameCache`, `jsPatterns`, `pageHtml`).
   */
  datatype Driver = Driver(
    tables: TabTables,
    storage: Store,
    mirror: Store,
    defs: Definitions.Definitions,
    hostnameCache: JsValue,
    jsPatterns: JsValue,
    pageHtml: JsValue)

  /** Calls into the detection engine and its collaborators. */
  datatype Effect =
    | AnalyzeCookies(url: string, tab: Option<Tab>)        // cookies of the page's domain, then analyze
    | Analyze(url: string, evidence: JsValue, tab: Option<Tab>)
    | CacheAds(record: JsValue)

  /** The argument of `sendResponse`. */
  datatype Response =
    | NoPayload                                              // sendResponse(undefined)
    | AppsSnapshot(
        tabCache: JsValue,
        apps: Option<Definitions.Apps>,
        categories: Option<Definitions.Categories>,
        pinnedCategory: JsValue,
        supportedApps: JsValue,
        incompatibleApps: JsValue,
        catTooltips: JsValue,
        techTooltips: JsValue,
        convertableApps: JsValue,
        trackedUrls: JsValue,
        html: JsValue)
    | JsPatterns(patterns: JsValue)

  /**
   * How one invocation of the listener ends: it throws, or it returns a
   * value after calling `sendResponse` at most once (`sent`).
   */
  datatype Outcome =
    | Threw
    | Returned(value: bool, sent: Option<Response>, effects: seq<Effect>, driver: Driver)

  /** `message.tab.id`: `None` when `message.tab` is `undefined` or `null`, so the read throws. */
  function TabIdOf(tab: JsValue): Option<JsValue> {
    match tab
    case Undefined => None
    case Null => None
    case Obj(props) => Some(Get(props, "id"))
    case _ => Some(Undefined)
  }

  /** The engine's extended-only fields as read: each is `undefined` until `extended_apps.json` has loaded. */
  function ExtendedOrUndefined(defs: Definitions.Definitions): (x: Definitions.ExtendedFields)
    ensures defs.extended.Some? ==> x == defs.extended.value
    ensures defs.extended.None? ==>
              && x.supportedApps.Undefined? && x.incompatibleApps.Undefined? && x.catTooltips.Undefined?
              && x.techTooltips.Undefined? && x.convertableApps.Undefined? && x.trackedUrls.Undefined?
  {
    match defs.extended
    case Some(x) => x
    case None => Definitions.ExtendedFields(Undefined, Undefined, Undefined, Undefined, Undefined, Undefined)
  }

  /**
   * The eleven fields of the `get_apps` response. `tracked_urls` is the tab's
   * `urlCache` entry, not the engine's own `tracked_urls`, and `categoryOrder`
   * is not sent.
   */
  function AppsResponse(d: Driver, id: JsValue): Response {
    var x := ExtendedOrUndefined(d.defs);
    AppsSnapshot(TabCacheEntry(d.tables.tabs, id), d.defs.apps, d.defs.categories, Get(d.mirror, "pinnedCategory"),
                 x.supportedApps, x.incompatibleApps, x.catTooltips, x.techTooltips, x.convertableApps,
                 GetUrlCache(d.tables.urls, id), d.pageHtml)
  }

  const Operations: set<JsValue> :=
    {Str("log"), Str("init"), Str("analyze"), Str("ad_log"), Str("get_apps"), Str("set_option"), Str("get_js_patterns")}

  /** The operations whose response carries a payload. */
  const Queries: set<JsValue> := {Str("get_apps"), Str("get_js_patterns")}

  /** The operations that write the option store. */
  const Writers: set<JsValue> := {Str("analyze"), Str("set_option")}

  /** What the switch hands to `sendResponse`, the engine calls it made, and the driver state after it. */
  datatype Dispatched = Dispatched(response: Response, effects: seq<Effect>, driver: Driver)

  /** The listener body for a message with a defined `id`, except the final `sendResponse`. */
  function Dispatch(d: Driver, m: Message, sender: Option<Tab>): (r: Option<Dispatched>)
    ensures r.None? <==> m.id == Str("get_apps") && TabIdOf(m.tab).None?
    ensures r.Some? && r.value.driver != d ==> m.id in Writers
  {
    var url := if sender.Some? then sender.value.url else "";
    match m.id
    case Str("log") => Some(Dispatched(NoPayload, [], d))
    case Str("init") => Some(Dispatched(NoPayload, [AnalyzeCookies(url, sender)], d))
    case Str("analyze") =>
      var w := SetOption(d.storage, d.mirror, "hostnameCache", d.hostnameCache);
      Some(Dispatched(NoPayload, [Analyze(url, m.subject, sender)], d.(storage := w.storage, mirror := w.mirror)))
    case Str("ad_log") => Some(Dispatched(NoPayload, [CacheAds(m.subject)], d))
    case Str("get_apps") =>
      (match TabIdOf(m.tab)
       case None => None
       case Some(id) =>
         Some(Dispatched(AppsResponse(d, id), [], d)))
    case Str("set_option") =>
      var w := SetOption(d.storage, d.mirror, ToStr(m.key), m.value);
      Some(Dispatched(NoPayload, [], d.(storage := w.storage, mirror := w.mirror)))
    case Str("get_js_patterns") => Some(Dispatched(JsPatterns(d.jsPatterns), [], d))
    case _ => Some(Dispatched(NoPayload, [], d))
  }

  /**
   * The listener. It returns `true` whenever it returns, and it throws only
   * for `get_apps` without `message.tab`. It calls `sendResponse` exactly
   * when `message.id` is defined; the payload is defined only for `get_apps`
   * and `get_js_patterns`. Only `analyze` and `set_option` write options,
   * only `init`, `analyze` and `ad_log` call into the engine, and the tab
   * tables and definitions are never changed.
   */
  function OnMessage(d: Driver, m: Message, sender: Option<Tab>): (r: Outcome)
    ensures r.Threw? <==> m.id == Str("get_apps") && (m.tab.Undefined? || m.tab.Null?)
    ensures r.Returned? ==> r.value
    ensures r.Returned? ==> (r.sent.Some? <==> !m.id.Undefined?)
    ensures r.Returned? && r.sent.Some? ==> (r.sent.value != NoPayload <==> m.id in Queries)
    ensures r.Returned? ==> r.driver.tables == d.tables && r.driver.defs == d.defs
    ensures r.Returned? && m.id !in Writers ==> r.driver == d
    ensures r.Returned? && m.id !in Operations ==> r.driver == d && r.effects == []
    ensures r.Returned? && r.effects != [] ==> m.id in {Str("init"), Str("analyze"), Str("ad_log")}
    ensures r.Returned? && m.id == Str("set_option") ==>
              r.driver.storage == d.storage[ToStr(m.key) := m.value]
              && r.driver.mirror == d.mirror[ToStr(m.key) := m.value]
    ensures r.Returned? && m.id == Str("analyze") ==>
              r.driver.storage == d.storage["hostnameCache" := d.hostnameCache]
    ensures r.Returned? && m.id == Str("get_apps") ==>
              var id := TabIdOf(m.tab).value;
              var x := ExtendedOrUndefined(d.defs);
              && r.sent.Some? && r.sent.value.AppsSnapshot?
              && r.sent.value.tabCache == TabCacheEntry(d.tables.tabs, id)
              && r.sent.value.apps == d.defs.apps && r.sent.value.categories == d.defs.categories
              && r.sent.value.pinnedCategory == Get(d.mirror, "pinnedCategory")
              && r.sent.value.supportedApps == x.supportedApps
              && r.sent.value.incompatibleApps == x.incompatibleApps
              && r.sent.value.catTooltips == x.catTooltips
              && r.sent.value.techTooltips == x.techTooltips
              && r.sent.value.convertableApps == x.convertableApps
              && r.sent.value.trackedUrls == GetUrlCache(d.tables.urls, id)
              && r.sent.value.html == d.pageHtml
  {
    if m.id.Undefined? then Returned(true, None, [], d)
    else
      match Dispatch(d, m, sender)
      case None => Threw
      case Some(out) => Returned(true, Some(out.response), out.effects, out.driver)
  }

  /** A `set_option` message followed by `getOption` of that key reads back the value, or the default when it is falsy. */
  lemma SetOptionMessageReadsBack(d: Driver, key: string, value: JsValue, sender: Option<Tab>, default: JsValue)
    ensures var r := OnMessage(d, Message(Str("set_option"), Undefined, Undefined, Str(key), value, Undefined), sender);
            r.Returned?
            && GetOption(r.driver.storage, r.driver.mirror, key, default, false).value
                 == (if Truthy(value) then value else default)
  {
    var r := OnMessage(d, Message(Str("set_option"), Undefined, Undefined, Str(key), value, Undefined), sender);
    SetThenGet(d.storage, d.mirror, key, value, default);
    assert ToStr(Str(key)) == key;
  }

  /**
   * After a tab closes, `get_apps` for it reports `tabCache: null` while its
   * recorded URLs are still handed out.
   */
  lemma GetAppsAfterTabClosed(d: Driver, tabId: int, sender: Option<Tab>)
    ensures var d' := d.(tables := CloseTab(d.tables, tabId));
            var r := OnMessage(d', Message(Str("get_apps"), Undefined, Undefined, Undefined, Undefined,
                                           Obj(map["id" := Num(tabId)])), sender);
            r.Returned? && r.sent.Some? && r.sent.value.AppsSnapshot?
            && r.sent.value.tabCache == Null
            && r.sent.value.trackedUrls == GetUrlCache(d.tables.urls, Num(tabId))
  {
  }

  /** Before `extended_apps.json` has loaded, `get_apps` hands out `undefined` for every extended-only field. */
  lemma GetAppsBeforeExtendedLoads(d: Driver, tabId: int, sender: Option<Tab>)
    requires d.defs.extended.None?
    ensures var r := OnMessage(d, Message(Str("get_apps"), Undefined, Undefined, Undefined, Undefined,
                                          Obj(map["id" := Num(tabId)])), sender);
            r.Returned? && r.sent.Some? && r.sent.value.AppsSnapshot?
            && r.sent.value.supportedApps == Undefined && r.sent.value.incompatibleApps == Undefined
            && r.sent.value.catTooltips == Undefined && r.sent.value.techTooltips == Undefined
            && r.sent.value.convertableApps == Undefined
  {
  }
}

=== FILE: option_store.dfy ===
/**
 * The option store: `storage.local` as a map from option name to value,
 * and the in-memory mirror `options` that `getOption` and `setOption` keep.
 */
module OptionStore {
  import opened JsValues

  type Store = map<string, JsValue>

  /** What `getOption` settles to: a value together with the updated mirror, or a rejection. */
  datatype Read = Resolved(value: JsValue, mirror: Store) | Rejected

  /**
   * `getOption(name, defaultValue)`. The storage read either delivers the
   * stored item or fails (`readFails`); a failure is logged and the promise
   * rejects, leaving the mirror as it was. Otherwise any falsy stored value,
   * a stored `false` included, is replaced by the default.
   */
  function GetOption(storage: Store, mirror: Store, name: string, default: JsValue, readFails: bool): (r: Read)
    ensures r.Rejected? <==> readFails
    ensures r.Resolved? && name in storage && Truthy(storage[name]) ==> r.value == storage[name]
    ensures r.Resolved? && !(name in storage && Truthy(storage[name])) ==> r.value == default
    ensures r.Resolved? ==> r.mirror.Keys == mirror.Keys + {name} && r.mirror[name] == r.value
    ensures r.Resolved? ==> forall k :: k in mirror && k != name ==> r.mirror[k] == mirror[k]
  {
    if readFails then Rejected
    else
      var v := Or(Get(storage, name), default);
      Resolved(v, mirror[name := v])
  }

  /** Storage and mirror after `setOption`. */
  datatype Written = Written(storage: Store, mirror: Store)

  /**
   * `setOption(name, value)`: the write to storage is fire-and-forget and is
   * modelled as taking effect; the mirror is updated at once.
   */
  function SetOption(storage: Store, mirror: Store, name: string, value: JsValue): (w: Written)
    ensures w.storage.Keys == storage.Keys + {name} && w.storage[name] == value
    ensures w.mirror.Keys == mirror.Keys + {name} && w.mirror[name] == value
    ensures forall k :: k in storage && k != name ==> w.storage[k] == storage[k]
    ensures forall k :: k in mirror && k != name ==> w.mirror[k] == mirror[k]
  {
    Written(storage[name := value], mirror[name := value])
  }

  /** Reading back an option that was set yields the value when it is truthy and the default otherwise. */
  lemma SetThenGet(storage: Store, mirror: Store, name: string, value: JsValue, default: JsValue)
    ensures var w := SetOption(storage, mirror, name, value);
            var r := GetOption(w.storage, w.mirror, name, default, false);
            r.Resolved? && r.value == (if Truthy(value) then value else default)
  {
  }

  /** Setting one option does not change what reading any other option yields. */
  lemma SetDoesNotDisturbOtherOptions(storage: Store, mirror: Store, name: string, value: JsValue,
                                      other: string, default: JsValue)
    requires other != name
    ensures var w := SetOption(storage, mirror, name, value);
            GetOption(w.storage, w.mirror, other, default, false).value
              == GetOption(storage, mirror, other, default, false).value
  {
  }

  /**
   * With a truthy default, `getOption` never resolves to a falsy value:
   * a stored `false` under such an option cannot be observed.
   */
  lemma TruthyDefaultHidesStoredFalse(storage: Store, mirror: Store, name: string, default: JsValue)
    requires Truthy(default)
    ensures var r := GetOption(storage, mirror, name, default, false);
            r.Resolved? && Truthy(r.value)
  {
  }

  /** In particular `getOption('tracking', true)` resolves to a truthy value whatever is stored. */
  lemma TrackingReadsTruthy(storage: Store, mirror: Store)
    ensures Truthy(GetOption(storage, mirror, "tracking", Bool(true), false).value)
  {
  }
}

=== FILE: robots.dfy ===
/**
 * `getRobotsTxt(host, secure)` as a state machine. The promise chain is cut
 * at its suspension points; each continuation is one event, and any
 * interleaving of enabled events is a possible run. A call either joins
 * the host's pending promise in `robotsTxtQueue` or creates a new one;
 * `finally` deletes the queue entry once that promise has settled.
 */
module Robots {
  import opened Wrappers
  import opened JsValues
  import opened OptionStore

  /** Where the continuation of one `getRobotsTxt` promise stands. */
  datatype Stage =
    | AwaitTracking                                       // waiting for getOption('tracking', true)
    | AwaitCache                                          // waiting for getOption('robotsTxtCache')
    | Fetching(snapshot: map<string, JsValue>)            // fetch started; snapshot is the cache object read
    | ReadingBody(snapshot: map<string, JsValue>, ok: bool) // response arrived, timeout cleared
    | Stuck                                               // a rejection nothing catches: never continues
    | Done                                                // the continuation has finished

  /**
   * One promise created by `getRobotsTxt`: its host, the pending 3000 ms
   * timer, the value it resolved to, and whether its `finally` has run.
   */
  datatype Op = Op(host: string, secure: bool, stage: Stage, timerArmed: bool, result: Option<JsValue>, settled: bool)

  /**
   * The driver state the machine touches: the queue (host to promise
   * handle), every promise created so far, the option store with its
   * mirror, and the log of robots.txt URLs fetched.
   */
  datatype State = State(
    queue: map<string, nat>,
    ops: map<nat, Op>,
    next: nat,
    storage: Store,
    mirror: Store,
    fetches: seq<string>)

  datatype Event =
    | Call(host: string, secure: bool)
    | TrackingRead(h: nat, fails: bool)
    | CacheRead(h: nat, fails: bool)
    | TimerFired(h: nat)
    | FetchFailed(h: nat)
    | Responded(h: nat, ok: bool)
    | BodyRead(h: nat, body: Option<string>)
    | Settle(h: nat)

  /** The empty rule list `[]` resolved on every failure path. */
  const NoRules: JsValue := Arr([])

  /** The initial state: no queue, no promises, the given option store. */
  function Init(storage: Store, mirror: Store): State {
    State(map[], map[], 0, storage, mirror, [])
  }

  /**
   * A promise is settled only after it resolved; before the fetch starts it
   * has neither resolved nor armed its timer; while fetching, it is
   * unresolved exactly while the timer is armed.
   */
  predicate OpOk(op: Op) {
    && (op.settled ==> op.result.Some?)
    && (op.stage.AwaitTracking? || op.stage.AwaitCache? || op.stage.Stuck? ==> op.result.None? && !op.timerArmed)
    && (op.stage.Fetching? ==> (op.result.None? <==> op.timerArmed))
  }

  /**
   * Handles are fresh below `next`; the queue maps each host to its one
   * unsettled promise, and every unsettled promise is the one queued for its host.
   */
  ghost predicate QueueInv(queue: map<string, nat>, ops: map<nat, Op>, next: nat) {
    && (forall h :: h in ops ==> h < next && OpOk(ops[h]))
    && (forall host :: host in queue ==>
          queue[host] in ops && ops[queue[host]].host == host && !ops[queue[host]].settled)
    && (forall h :: h in ops && !ops[h].settled ==> ops[h].host in queue && queue[ops[h].host] == h)
  }

  /** The well-formedness the machine keeps. */
  ghost predicate Inv(s: State) {
    QueueInv(s.queue, s.ops, s.next)
  }

  /** The initial state is well formed, so every run from it is too. */
  lemma InitSatisfiesInv(storage: Store, mirror: Store)
    ensures Inv(Init(storage, mirror))
  {
  }

  /** Replacing a promise's record by one with the same host and settledness keeps the queue well formed. */
  lemma ReplaceOp(queue: map<string, nat>, ops: map<nat, Op>, next: nat, h: nat, op: Op)
    requires QueueInv(queue, ops, next) && h in ops
    requires op.host == ops[h].host && op.settled == ops[h].settled && OpOk(op)
    ensures QueueInv(queue, ops[h := op], next)
  {
  }

  /** The URL fetched for `host`: `http://` or `https://`, then `{host}/robots.txt`. */
  function RobotsUrl(host: string, secure: bool): string {
    "http" + (if secure then "s" else "") + "://" + host + "/robots.txt"
  }

  /**
   * The robots.txt URL uses `https://` exactly when `secure` is set, and is
   * the host followed by the root path `/robots.txt` (section 2.3 of RFC 9309).
   */
  lemma RobotsUrlShape(host: string, secure: bool)
    ensures var u := RobotsUrl(host, secure);
            && (secure <==> |u| >= 8 && u[..8] == "https://")
            && (!secure ==> u[..7] == "http://")
            && |u| >= 11 && u[|u| - 11..] == "/robots.txt"
            && u[(if secure then 8 else 7)..|u| - 11] == host
  {
    var u := RobotsUrl(host, secure);
    if secure {
      assert u == "https://" + host + "/robots.txt";
    } else {
      assert u == "http://" + host + "/robots.txt";
      assert u[4] == ':';
    }
  }

  /** A promise resolves at most once: later calls of `resolve` are ignored. */
  function Resolve(op: Op, v: JsValue): (r: Op)
    ensures op.result.Some? ==> r.result == op.result
    ensures op.result.None? ==> r.result == Some(v)
    ensures r.(result := op.result) == op
  {
    if op.result.None? then op.(result := Some(v)) else op
  }

  /** The outcome of a call: the state after it and the promise handed back. */
  datatype Called = Called(state: State, handle: nat)

  /**
   * `getRobotsTxt(host, secure)` itself. A pending promise for the host is
   * returned as is and no work starts; otherwise a new promise is queued
   * under the host and its continuation waits for the tracking option.
   */
  function GetRobotsTxt(s: State, host: string, secure: bool): (r: Called)
    requires Inv(s)
    ensures host in s.queue ==> r.handle == s.queue[host] && r.state == s
    ensures host !in s.queue ==> r.handle !in s.ops
    ensures host !in s.queue ==> r.state.queue == s.queue[host := r.handle]
    ensures host !in s.queue ==> r.state.ops == s.ops[r.handle := Op(host, secure, AwaitTracking, false, None, false)]
    ensures r.state.storage == s.storage && r.state.mirror == s.mirror && r.state.fetches == s.fetches
    ensures Inv(r.state)
  {
    if host in s.queue then Called(s, s.queue[host])
    else
      var h := s.next;
      Called(s.(queue := s.queue[host := h],
                ops := s.ops[h := Op(host, secure, AwaitTracking, false, None, false)],
                next := h + 1),
             h)
  }

  /** The `.then` after the tracking option: a falsy value resolves `[]`, otherwise the cache is read next. */
  function AfterTracking(s: State, h: nat, tracking: JsValue): (r: State)
    requires h in s.ops
    ensures forall k :: k in s.ops && k != h ==> k in r.ops && r.ops[k] == s.ops[k]
    ensures r.ops.Keys == s.ops.Keys && r.queue == s.queue && r.storage == s.storage && r.fetches == s.fetches
    ensures Truthy(tracking) <==> r.ops[h].stage.AwaitCache?
  {
    var op := s.ops[h];
    if !Truthy(tracking) then s.(ops := s.ops[h := Resolve(op, NoRules).(stage := Done)])
    else s.(ops := s.ops[h := op.(stage := AwaitCache)])
  }

  /**
   * The `.then` after the robots cache was read (`cache` is already
   * `robotsTxtCache || {}`): a cached host resolves its rules; otherwise the
   * timer is armed and the fetch starts. A value that is not an object makes
   * the `in` test throw, and the promise never settles.
   */
  function AfterCacheRead(s: State, h: nat, cache: JsValue): (r: State)
    requires h in s.ops
    ensures forall k :: k in s.ops && k != h ==> k in r.ops && r.ops[k] == s.ops[k]
    ensures r.ops.Keys == s.ops.Keys && r.queue == s.queue && r.storage == s.storage
    ensures r.fetches != s.fetches <==> cache.Obj? && s.ops[h].host !in cache.props
    ensures r.ops[h].stage.Stuck? <==> !cache.Obj?
  {
    var op := s.ops[h];
    match cache
    case Obj(m) =>
      if op.host in m then s.(ops := s.ops[h := Resolve(op, m[op.host]).(stage := Done)])
      else s.(ops := s.ops[h := op.(stage := Fetching(m), timerArmed := true)],
              fetches := s.fetches + [RobotsUrl(op.host, op.secure)])
    case _ => s.(ops := s.ops[h := op.(stage := Stuck)])
  }

  /**
   * The body (or `''` for a non-ok response) has been read: its parse is
   * stored under the host in the cache object read earlier, that object is
   * written back with `setOption`, and the promise resolves to the parse.
   * A failed body read resolves `[]`.
   */
  function AfterBody(s: State, h: nat, text: Option<string>, parse: string -> JsValue): (r: State)
    requires h in s.ops && s.ops[h].stage.ReadingBody?
    ensures forall k :: k in s.ops && k != h ==> k in r.ops && r.ops[k] == s.ops[k]
    ensures r.ops.Keys == s.ops.Keys && r.queue == s.queue && r.fetches == s.fetches && r.ops[h].stage.Done?
    ensures text.None? ==> r.storage == s.storage
    ensures text.Some? ==> ("robotsTxtCache" in r.storage && r.storage["robotsTxtCache"].Obj?
                            && r.storage["robotsTxtCache"].props.Keys == s.ops[h].stage.snapshot.Keys + {s.ops[h].host})
  {
    var op := s.ops[h];
    match text
    case None => s.(ops := s.ops[h := Resolve(op, NoRules).(stage := Done)])
    case Some(t) =>
      var rules := parse(t);
      var w := SetOption(s.storage, s.mirror, "robotsTxtCache", Obj(op.stage.snapshot[op.host := rules]));
      s.(storage := w.storage, mirror := w.mirror, ops := s.ops[h := Resolve(op, rules).(stage := Done)])
  }

  /** The events that can happen in state `s`. */
  predicate Enabled(s: State, e: Event) {
    match e
    case Call(_, _) => true
    case TrackingRead(h, _) => h in s.ops && s.ops[h].stage.AwaitTracking?
    case CacheRead(h, _) => h in s.ops && s.ops[h].stage.AwaitCache?
    case TimerFired(h) => h in s.ops && s.ops[h].timerArmed
    case FetchFailed(h) => h in s.ops && s.ops[h].stage.Fetching?
    case Responded(h, _) => h in s.ops && s.ops[h].stage.Fetching?
    case BodyRead(h, _) => h in s.ops && s.ops[h].stage.ReadingBody?
    case Settle(h) => h in s.ops && s.ops[h].result.Some? && !s.ops[h].settled
  }

  /**
   * One event. A rejected option read (`fails`) is not caught anywhere in
   * `getRobotsTxt`, so the promise is stuck. The timer resolves `[]` but
   * leaves the fetch running. A fetch error resolves `[]` without clearing
   * the timer. Settling deletes the host's queue entry.
   */
  function Step(s: State, e: Event, parse: string -> JsValue): (r: State)
    requires Inv(s) && Enabled(s, e)
    ensures s.ops.Keys <= r.ops.Keys && s.next <= r.next
    ensures !e.BodyRead? ==> r.storage == s.storage
    ensures !e.CacheRead? ==> r.fetches == s.fetches
  {
    match e
    case Call(host, secure) => GetRobotsTxt(s, host, secure).state
    case TrackingRead(h, fails) =>
      if fails then s.(ops := s.ops[h := s.ops[h].(stage := Stuck)])
      else
        var g := GetOption(s.storage, s.mirror, "tracking", Bool(true), false);
        AfterTracking(s.(mirror := g.mirror), h, g.value)
    case CacheRead(h, fails) =>
      if fails then s.(ops := s.ops[h := s.ops[h].(stage := Stuck)])
      else
        var g := GetOption(s.storage, s.mirror, "robotsTxtCache", Null, false);
        AfterCacheRead(s.(mirror := g.mirror), h, Or(g.value, Obj(map[])))
    case TimerFired(h) =>
      s.(ops := s.ops[h := Resolve(s.ops[h], NoRules).(timerArmed := false)])
    case FetchFailed(h) =>
      s.(ops := s.ops[h := Resolve(s.ops[h], NoRules).(stage := Done)])
    case Responded(h, ok) =>
      var op := s.ops[h];
      s.(ops := s.ops[h := op.(stage := ReadingBody(op.stage.snapshot, ok), timerArmed := false)])
    case BodyRead(h, body) =>
      AfterBody(s, h, if s.ops[h].stage.ok then body else Some(""), parse)
    case Settle(h) =>
      var op := s.ops[h];
      s.(queue := s.queue - {op.host}, ops := s.ops[h := op.(settled := true)])
  }

  /**
   * `t` differs from `s` in the record of promise `h` only, and the new
   * record `op` keeps the host, never moves the stage backwards, never
   * changes a value already resolved and is well formed.
   */
  ghost predicate RewritesOne(s: State, t: State, h: nat, op: Op) {
    && h in s.ops
    && t.ops == s.ops[h := op] && t.next == s.next
    && op.host == s.ops[h].host && op.secure == s.ops[h].secure && OpOk(op)
    && (s.ops[h].result.Some? ==> op.result == s.ops[h].result)
    && StageRank(s.ops[h].stage) <= StageRank(op.stage)
  }

  lemma TrackingReadOp(s: State, h: nat, fails: bool, parse: string -> JsValue) returns (op: Op)
    requires Inv(s) && Enabled(s, TrackingRead(h, fails))
    ensures var t := Step(s, TrackingRead(h, fails), parse);
            RewritesOne(s, t, h, op) && op.settled == s.ops[h].settled && t.queue == s.queue && t.fetches == s.fetches
  {
    var t := Step(s, TrackingRead(h, fails), parse);
    var cur := s.ops[h];
    if fails {
      op := cur.(stage := Stuck);
    } else {
      var g := GetOption(s.storage, s.mirror, "tracking", Bool(true), false);
      op := if Truthy(g.value) then cur.(stage := AwaitCache) else Resolve(cur, NoRules).(stage := Done);
      assert t == s.(mirror := g.mirror, ops := s.ops[h := op]);
    }
  }

  lemma CacheReadOp(s: State, h: nat, fails: bool, parse: string -> JsValue) returns (op: Op)
    requires Inv(s) && Enabled(s, CacheRead(h, fails))
    ensures var t := Step(s, CacheRead(h, fails), parse);
            && RewritesOne(s, t, h, op) && op.settled == s.ops[h].settled && t.queue == s.queue
            && (t.fetches == s.fetches
                || (op.stage.Fetching? && t.fetches == s.fetches + [RobotsUrl(op.host, op.secure)]))
  {
    var t := Step(s, CacheRead(h, fails), parse);
    var cur := s.ops[h];
    if fails {
      op := cur.(stage := Stuck);
    } else {
      var g := GetOption(s.storage, s.mirror, "robotsTxtCache", Null, false);
      var cache := Or(g.value, Obj(map[]));
      assert t == AfterCacheRead(s.(mirror := g.mirror), h, cache);
      match cache
      case Obj(m) =>
        if cur.host in m {
          op := Resolve(cur, m[cur.host]).(stage := Done);
        } else {
          op := cur.(stage := Fetching(m), timerArmed := true);
        }
      case _ =>
        op := cur.(stage := Stuck);
    }
  }

  lemma BodyReadOp(s: State, h: nat, body: Option<string>, parse: string -> JsValue) returns (op: Op)
    requires Inv(s) && Enabled(s, BodyRead(h, body))
    ensures var t := Step(s, BodyRead(h, body), parse);
            RewritesOne(s, t, h, op) && op.settled == s.ops[h].settled && t.queue == s.queue && t.fetches == s.fetches
  {
    var cur := s.ops[h];
    var text := if cur.stage.ok then body else Some("");
    op := if text.None? then Resolve(cur, NoRules).(stage := Done) else Resolve(cur, parse(text.value)).(stage := Done);
    assert Step(s, BodyRead(h, body), parse) == AfterBody(s, h, text, parse);
  }

  /**
   * Every event other than a call rewrites the record of its own promise
   * only (`RewritesOne`). Only settling touches the queue, and only a cache
   * miss extends the fetch log.
   */
  lemma StepOnOneOp(s: State, e: Event, parse: string -> JsValue) returns (op: Op)
    requires Inv(s) && Enabled(s, e) && !e.Call?
    ensures RewritesOne(s, Step(s, e, parse), e.h, op)
    ensures e.Settle? ==> op.settled && Step(s, e, parse).queue == s.queue - {op.host}
    ensures !e.Settle? ==> op.settled == s.ops[e.h].settled && Step(s, e, parse).queue == s.queue
    ensures Step(s, e, parse).fetches == s.fetches
            || (e.CacheRead? && s.ops[e.h].stage.AwaitCache? && op.stage.Fetching?
                && Step(s, e, parse).fetches == s.fetches + [RobotsUrl(op.host, op.secure)])
  {
    var cur := s.ops[e.h];
    match e
    case TrackingRead(h, fails) =>
      op := TrackingReadOp(s, h, fails, parse);
    case CacheRead(h, fails) =>
      op := CacheReadOp(s, h, fails, parse);
    case TimerFired(h) =>
      op := Resolve(cur, NoRules).(timerArmed := false);
    case FetchFailed(h) =>
      op := Resolve(cur, NoRules).(stage := Done);
    case Responded(h, ok) =>
      op := cur.(stage := ReadingBody(cur.stage.snapshot, ok), timerArmed := false);
    case BodyRead(h, body) =>
      op := BodyReadOp(s, h, body, parse);
    case Settle(h) =>
      op := cur.(settled := true);
  }

  /** Every event keeps the machine well formed. */
  lemma StepKeepsInv(s: State, e: Event, parse: string -> JsValue)
    requires Inv(s) && Enabled(s, e)
    ensures Inv(Step(s, e, parse))
  {
    if !e.Call? {
      var op := StepOnOneOp(s, e, parse);
      if !e.Settle? {
        ReplaceOp(s.queue, s.ops, s.next, e.h, op);
      }
    }
  }

  /** Runs a sequence of events from `s`; an event that is not enabled is skipped. */
  function Run(s: State, es: seq<Event>, parse: string -> JsValue): State
    requires Inv(s)
    decreases |es|
  {
    if |es| == 0 then s
    else
      var s' := if Enabled(s, es[0]) then (StepKeepsInv(s, es[0], parse); Step(s, es[0], parse)) else s;
      Run(s', es[1..], parse)
  }

  lemma {:induction false} RunKeepsInv(s: State, es: seq<Event>, parse: string -> JsValue)
    requires Inv(s)
    ensures Inv(Run(s, es, parse))
    decreases |es|
  {
    if |es| > 0 {
      var s' := if Enabled(s, es[0]) then (StepKeepsInv(s, es[0], parse); Step(s, es[0], parse)) else s;
      RunKeepsInv(s', es[1..], parse);
    }
  }

  /** Single flight: while a host's promise is queued, a call hands back that same promise and starts nothing. */
  lemma CallJoinsPendingPromise(s: State, host: string, secure: bool)
    requires Inv(s) && host in s.queue
    ensures GetRobotsTxt(s, host, secure) == Called(s, s.queue[host])
  {
  }

  /** Two calls for a host in a row share one promise, and only the first creates anything. */
  lemma SecondCallSharesPromise(s: State, host: string, secure1: bool, secure2: bool)
    requires Inv(s)
    ensures var c1 := GetRobotsTxt(s, host, secure1);
            var c2 := GetRobotsTxt(c1.state, host, secure2);
            c2.handle == c1.handle && c2.state == c1.state && |c1.state.ops| <= |s.ops| + 1
  {
  }

  /** Once a promise has resolved, no event changes the value it resolved to. */
  lemma ResolvedValueIsFinal(s: State, e: Event, parse: string -> JsValue, h: nat)
    requires Inv(s) && Enabled(s, e) && h in s.ops && s.ops[h].result.Some?
    ensures var t := Step(s, e, parse);
            h in t.ops && t.ops[h].result == s.ops[h].result && t.ops[h].host == s.ops[h].host
  {
    if !e.Call? {
      var op := StepOnOneOp(s, e, parse);
    }
  }

  /** Position of a stage in the life of a promise. */
  function StageRank(st: Stage): nat {
    match st
    case AwaitTracking => 0
    case AwaitCache => 1
    case Fetching(_) => 2
    case ReadingBody(_, _) => 3
    case Stuck => 4
    case Done => 4
  }

  /**
   * A fetch is started only by the cache read that misses, which moves its
   * promise from `AwaitCache` to `Fetching`; stages never move backwards, so
   * every promise fetches at most once. Nothing else changes the fetch log.
   */
  lemma FetchOnlyOnCacheMiss(s: State, e: Event, parse: string -> JsValue)
    requires Inv(s) && Enabled(s, e)
    ensures var t := Step(s, e, parse);
            && (forall h :: h in s.ops ==> h in t.ops && StageRank(s.ops[h].stage) <= StageRank(t.ops[h].stage))
            && (t.fetches == s.fetches ||
                (e.CacheRead? && s.ops[e.h].stage.AwaitCache? && t.ops[e.h].stage.Fetching?
                 && t.fetches == s.fetches + [RobotsUrl(s.ops[e.h].host, s.ops[e.h].secure)]))
  {
    if !e.Call? {
      var op := StepOnOneOp(s, e, parse);
    }
  }

  /** Settling deletes exactly the queue entry of that promise's host. */
  lemma SettleRemovesOnlyItsHost(s: State, h: nat, parse: string -> JsValue)
    requires Inv(s) && Enabled(s, Settle(h))
    ensures var t := Step(s, Settle(h), parse);
            && s.ops[h].host in s.queue && s.queue[s.ops[h].host] == h
            && t.queue == s.queue - {s.ops[h].host}
            && t.storage == s.storage && t.fetches == s.fetches
  {
  }

  /** After settling, the next call for that host starts a fresh promise. */
  lemma CallAfterSettleStartsFresh(s: State, h: nat, parse: string -> JsValue, secure: bool)
    requires Inv(s) && Enabled(s, Settle(h))
    ensures var t := Step(s, Settle(h), parse);
            Inv(t) && GetRobotsTxt(t, s.ops[h].host, secure).handle != h
  {
    StepKeepsInv(s, Settle(h), parse);
  }

  /** A falsy tracking value resolves `[]` with no fetch and no storage write. */
  lemma TrackingOffResolvesEmpty(s: State, h: nat, tracking: JsValue)
    requires Inv(s) && h in s.ops && s.ops[h].stage.AwaitTracking? && !Truthy(tracking)
    ensures var t := AfterTracking(s, h, tracking);
            t.ops[h].result == Some(NoRules) && t.ops[h].stage.Done?
            && t.fetches == s.fetches && t.storage == s.storage && t.queue == s.queue
  {
  }

  /**
   * Because `getOption` replaces a falsy stored value by the default `true`,
   * a successful tracking read always goes on to the cache read, whatever
   * is stored under `tracking`.
   */
  lemma TrackingReadAlwaysProceeds(s: State, h: nat, parse: string -> JsValue)
    requires Inv(s) && Enabled(s, TrackingRead(h, false))
    ensures var t := Step(s, TrackingRead(h, false), parse);
            t.ops[h].stage.AwaitCache? && t.ops[h].result.None? && t.storage == s.storage
  {
    TrackingReadsTruthy(s.storage, s.mirror);
  }

  /** A host already in the stored robots cache resolves to its cached rules without a fetch. */
  lemma CacheHitResolvesCachedRules(s: State, h: nat, parse: string -> JsValue, m: map<string, JsValue>)
    requires Inv(s) && Enabled(s, CacheRead(h, false))
    requires "robotsTxtCache" in s.storage && s.storage["robotsTxtCache"] == Obj(m) && s.ops[h].host in m
    ensures var t := Step(s, CacheRead(h, false), parse);
            t.ops[h].result == Some(m[s.ops[h].host]) && t.ops[h].stage.Done?
            && t.fetches == s.fetches && t.storage == s.storage
  {
  }

  /** A host missing from the stored robots cache arms the timer and fetches its robots.txt URL. */
  lemma CacheMissStartsFetch(s: State, h: nat, parse: string -> JsValue)
    requires Inv(s) && Enabled(s, CacheRead(h, false))
    requires "robotsTxtCache" !in s.storage || !Truthy(s.storage["robotsTxtCache"])
             || (s.storage["robotsTxtCache"].Obj? && s.ops[h].host !in s.storage["robotsTxtCache"].props)
    ensures var t := Step(s, CacheRead(h, false), parse);
            && t.ops[h].stage.Fetching? && t.ops[h].timerArmed && t.ops[h].result.None?
            && t.fetches == s.fetches + [RobotsUrl(s.ops[h].host, s.ops[h].secure)]
            && t.storage == s.storage
  {
  }

  /** A non-ok response stores and resolves the parse of the empty text. */
  lemma NonOkStoresParseOfEmpty(s: State, h: nat, body: Option<string>, parse: string -> JsValue)
    requires Inv(s) && Enabled(s, BodyRead(h, body)) && !s.ops[h].stage.ok
    ensures var t := Step(s, BodyRead(h, body), parse);
            var op := s.ops[h];
            && t.storage == s.storage["robotsTxtCache" := Obj(op.stage.snapshot[op.host := parse("")])]
            && t.ops[h].result == (if op.result.Some? then op.result else Some(parse("")))
  {
  }

  /** An ok response stores the parse of its body under the host, on top of the cache object read earlier. */
  lemma OkStoresParseOfBody(s: State, h: nat, body: string, parse: string -> JsValue)
    requires Inv(s) && Enabled(s, BodyRead(h, Some(body))) && s.ops[h].stage.ok
    ensures var t := Step(s, BodyRead(h, Some(body)), parse);
            var op := s.ops[h];
            && t.storage == s.storage["robotsTxtCache" := Obj(op.stage.snapshot[op.host := parse(body)])]
            && t.mirror == s.mirror["robotsTxtCache" := Obj(op.stage.snapshot[op.host := parse(body)])]
            && t.ops[h].result == (if op.result.Some? then op.result else Some(parse(body)))
  {
  }

  /** A fetch error resolves `[]` and writes nothing. */
  lemma FetchErrorResolvesEmpty(s: State, h: nat, parse: string -> JsValue)
    requires Inv(s) && Enabled(s, FetchFailed(h)) && s.ops[h].result.None?
    ensures var t := Step(s, FetchFailed(h), parse);
            t.ops[h].result == Some(NoRules) && t.storage == s.storage && t.fetches == s.fetches
  {
  }

  /**
   * The timer firing first resolves `[]`; a success arriving afterwards is
   * still parsed, stored and persisted, though its promise keeps `[]`.
   */
  lemma LateSuccessAfterTimeoutStillWrites(s: State, h: nat, body: string, parse: string -> JsValue)
    requires Inv(s) && h in s.ops && s.ops[h].stage.Fetching? && s.ops[h].timerArmed
    ensures var op := s.ops[h];
            var s1 := Step(s, TimerFired(h), parse);
            Inv(s1) && Enabled(s1, Responded(h, true))
            && var s2 := Step(s1, Responded(h, true), parse);
               Inv(s2) && Enabled(s2, BodyRead(h, Some(body)))
               && var s3 := Step(s2, BodyRead(h, Some(body)), parse);
                  && s3.ops[h].result == Some(NoRules)
                  && s3.storage == s.storage["robotsTxtCache" := Obj(op.stage.snapshot[op.host := parse(body)])]
  {
    var op := s.ops[h];
    var s1 := Step(s, TimerFired(h), parse);
    StepKeepsInv(s, TimerFired(h), parse);
    assert s1.ops[h] == Resolve(op, NoRules).(timerArmed := false);
    var s2 := Step(s1, Responded(h, true), parse);
    StepKeepsInv(s1, Responded(h, true), parse);
    assert s2.ops[h].stage == ReadingBody(op.stage.snapshot, true) && s2.storage == s.storage;
    assert s2.ops[h].result == Some(NoRules);
  }

  /**
   * Each completed fetch writes back the cache object its own continuation
   * read, whatever was stored meanwhile: of two overlapping fetches for
   * different hosts, the later write drops the earlier host unless it was
   * already in the later one's snapshot.
   */
  lemma LastWriterWins(s: State, h: nat, body: string, parse: string -> JsValue, other: string)
    requires Inv(s) && Enabled(s, BodyRead(h, Some(body))) && s.ops[h].stage.ok
    requires other != s.ops[h].host && other !in s.ops[h].stage.snapshot
    ensures var t := Step(s, BodyRead(h, Some(body)), parse);
            "robotsTxtCache" in t.storage && t.storage["robotsTxtCache"].Obj?
            && other !in t.storage["robotsTxtCache"].props
  {
  }

  /** One event leaves a stuck promise, and its host's queue entry, as they were. */
  lemma StuckIsAbsorbing(s: State, e: Event, parse: string -> JsValue, h: nat)
    requires Inv(s) && Enabled(s, e) && h in s.ops && s.ops[h].stage.Stuck?
    ensures var t := Step(s, e, parse);
            h in t.ops && t.ops[h] == s.ops[h] && s.ops[h].host in t.queue && t.queue[s.ops[h].host] == h
  {
    if !e.Call? {
      var op := StepOnOneOp(s, e, parse);
      assert e.h != h;
    }
  }

  /**
   * A rejected option read leaks the queue entry: whatever happens next, the
   * promise never resolves, its host stays queued, and every later call for
   * that host is handed the same pending promise.
   */
  lemma {:induction false} StuckPromiseNeverSettles(s: State, es: seq<Event>, parse: string -> JsValue, h: nat, secure: bool)
    requires Inv(s) && h in s.ops && s.ops[h].stage.Stuck?
    ensures var t := Run(s, es, parse);
            && Inv(t) && h in t.ops && t.ops[h] == s.ops[h] && t.ops[h].result.None?
            && GetRobotsTxt(t, s.ops[h].host, secure).handle == h
    decreases |es|
  {
    RunKeepsInv(s, es, parse);
    if |es| > 0 {
      var s' := if Enabled(s, es[0]) then (StepKeepsInv(s, es[0], parse); Step(s, es[0], parse)) else s;
      if Enabled(s, es[0]) {
        StuckIsAbsorbing(s, es[0], parse, h);
      }
      StuckPromiseNeverSettles(s', es[1..], parse, h, secure);
    }
  }

  /** Running a sequence whose first event is enabled takes that step first. */
  lemma RunCons(s: State, e: Event, rest: seq<Event>, parse: string -> JsValue)
    requires Inv(s) && Enabled(s, e)
    ensures Inv(Step(s, e, parse))
    ensures Run(s, [e] + rest, parse) == Run(Step(s, e, parse), rest, parse)
  {
    StepKeepsInv(s, e, parse);
    assert ([e] + rest)[0] == e && ([e] + rest)[1..] == rest;
  }

  /** Running `a + b` is running `a`, then `b`. */
  lemma {:induction false} RunAppend(s: State, a: seq<Event>, b: seq<Event>, parse: string -> JsValue)
    requires Inv(s)
    ensures Inv(Run(s, a, parse))
    ensures Run(s, a + b, parse) == Run(Run(s, a, parse), b, parse)
    decreases |a|
  {
    RunKeepsInv(s, a, parse);
    if |a| > 0 {
      var s' := if Enabled(s, a[0]) then (StepKeepsInv(s, a[0], parse); Step(s, a[0], parse)) else s;
      assert (a + b)[0] == a[0] && (a + b)[1..] == a[1..] + b;
      RunAppend(s', a[1..], b, parse);
    } else {
      assert a + b == b;
    }
  }

  /** A call for a host with no queued promise, then its tracking read: the new promise awaits the cache read. */
  lemma FreshCallAwaitsCache(s: State, host: string, secure: bool, parse: string -> JsValue)
    requires Inv(s) && host !in s.queue
    ensures var h := s.next;
            var t := Run(s, [Call(host, secure), TrackingRead(h, false)], parse);
            && Inv(t) && t.storage == s.storage && t.fetches == s.fetches
            && t.queue == s.queue[host := h] && t.next == h + 1
            && h in t.ops && t.ops[h].stage.AwaitCache? && !t.ops[h].settled
            && t.ops[h].host == host && t.ops[h].secure == secure
            && (forall k :: k in s.ops ==> k in t.ops && t.ops[k] == s.ops[k])
  {
    var h := s.next;
    var s1 := Step(s, Call(host, secure), parse);
    RunCons(s, Call(host, secure), [TrackingRead(h, false)], parse);
    assert [Call(host, secure), TrackingRead(h, false)] == [Call(host, secure)] + [TrackingRead(h, false)];
    TrackingReadAlwaysProceeds(s1, h, parse);
    var op := StepOnOneOp(s1, TrackingRead(h, false), parse);
    RunCons(s1, TrackingRead(h, false), [], parse);
    assert [TrackingRead(h, false)] == [TrackingRead(h, false)] + [];
  }

  /** The cache read of a promise whose host is not cached (no cache stored) starts its fetch. */
  lemma CacheReadMissFetches(s: State, h: nat, parse: string -> JsValue)
    requires Inv(s) && h in s.ops && s.ops[h].stage.AwaitCache? && "robotsTxtCache" !in s.storage
    ensures var t := Run(s, [CacheRead(h, false)], parse);
            && t.storage == s.storage && t.queue == s.queue && t.next == s.next
            && h in t.ops && t.ops[h].stage.Fetching? && t.ops[h].timerArmed
            && t.ops[h].settled == s.ops[h].settled
            && t.fetches == s.fetches + [RobotsUrl(s.ops[h].host, s.ops[h].secure)]
            && (forall k :: k in s.ops && k != h ==> k in t.ops && t.ops[k] == s.ops[k])
  {
    CacheMissStartsFetch(s, h, parse);
    var op := StepOnOneOp(s, CacheRead(h, false), parse);
    RunCons(s, CacheRead(h, false), [], parse);
    assert [CacheRead(h, false)] == [CacheRead(h, false)] + [];
  }

  /** A call for `host`, then the tracking and cache reads of the promise `h` it creates. */
  function CallThrough(host: string, secure: bool, h: nat): seq<Event> {
    [Call(host, secure), TrackingRead(h, false), CacheRead(h, false)]
  }

  /**
   * A call for a host with no queued promise, followed by its tracking and
   * cache reads, when no robots cache is stored: the new promise is
   * fetching and the fetch log has grown by its URL; nothing else changed.
   */
  lemma FreshCallFetches(s: State, host: string, secure: bool, parse: string -> JsValue)
    requires Inv(s) && host !in s.queue && "robotsTxtCache" !in s.storage
    ensures var h := s.next;
            var t := Run(s, CallThrough(host, secure, h), parse);
            && t.storage == s.storage && t.queue == s.queue[host := h] && t.next == h + 1
            && h in t.ops && t.ops[h].stage.Fetching? && t.ops[h].timerArmed && !t.ops[h].settled
            && t.fetches == s.fetches + [RobotsUrl(host, secure)]
            && (forall k :: k in s.ops ==> k in t.ops && t.ops[k] == s.ops[k])
  {
    var h := s.next;
    var start := [Call(host, secure), TrackingRead(h, false)];
    assert CallThrough(host, secure, h) == start + [CacheRead(h, false)];
    RunAppend(s, start, [CacheRead(h, false)], parse);
    FreshCallAwaitsCache(s, host, secure, parse);
    CacheReadMissFetches(Run(s, start, parse), h, parse);
    assert h !in s.ops;
  }

  /**
   * The timer of a fetching promise fires and the promise settles: its
   * host's queue entry is freed while the fetch is still outstanding.
   */
  lemma TimeoutThenSettle(s: State, h: nat, parse: string -> JsValue)
    requires Inv(s) && h in s.ops && s.ops[h].stage.Fetching? && s.ops[h].timerArmed
    ensures var t := Run(s, [TimerFired(h), Settle(h)], parse);
            && Inv(t) && h in t.ops && t.ops[h].stage.Fetching? && t.ops[h].settled
            && s.ops[h].host !in t.queue && t.next == s.next
            && t.storage == s.storage && t.fetches == s.fetches
  {
    var op4 := StepOnOneOp(s, TimerFired(h), parse);
    var s4 := Step(s, TimerFired(h), parse);
    RunCons(s, TimerFired(h), [Settle(h)], parse);
    assert [TimerFired(h), Settle(h)] == [TimerFired(h)] + [Settle(h)];
    var op5 := StepOnOneOp(s4, Settle(h), parse);
    RunCons(s4, Settle(h), [], parse);
    assert [Settle(h)] == [Settle(h)] + [];
  }

  /**
   * A fresh call fetches, its timer fires and its promise settles: the
   * host's queue entry is gone while the promise is still fetching.
   */
  lemma FetchTimeoutSettle(s: State, host: string, secure: bool, parse: string -> JsValue)
    requires Inv(s) && host !in s.queue && "robotsTxtCache" !in s.storage
    ensures var h := s.next;
            var t := Run(s, CallThrough(host, secure, h) + [TimerFired(h), Settle(h)], parse);
            && Inv(t) && host !in t.queue && t.next == h + 1 && t.storage == s.storage
            && h in t.ops && t.ops[h].stage.Fetching? && t.ops[h].settled
            && t.fetches == s.fetches + [RobotsUrl(host, secure)]
  {
    var h := s.next;
    FreshCallFetches(s, host, secure, parse);
    RunAppend(s, CallThrough(host, secure, h), [TimerFired(h), Settle(h)], parse);
    TimeoutThenSettle(Run(s, CallThrough(host, secure, h), parse), h, parse);
  }

  /**
   * If running `first` leaves promise `h` fetching and settled with its
   * host's queue entry freed, a fresh call for the host afterwards fetches
   * the same URL again.
   */
  lemma FetchAgainAfter(s: State, first: seq<Event>, host: string, secure: bool, parse: string -> JsValue)
    requires Inv(s)
    requires var m := Run(s, first, parse);
             && Inv(m) && host !in m.queue && m.next == s.next + 1 && m.storage == s.storage
             && s.next in m.ops && m.ops[s.next].stage.Fetching? && m.ops[s.next].settled
             && m.fetches == s.fetches + [RobotsUrl(host, secure)]
    requires "robotsTxtCache" !in s.storage
    ensures var h := s.next;
            var t := Run(s, first + CallThrough(host, secure, h + 1), parse);
            && h in t.ops && t.ops[h].stage.Fetching? && t.ops[h].settled
            && h + 1 in t.ops && t.ops[h + 1].stage.Fetching?
            && t.fetches == s.fetches + [RobotsUrl(host, secure), RobotsUrl(host, secure)]
  {
    var m := Run(s, first, parse);
    var url := RobotsUrl(host, secure);
    RunAppend(s, first, CallThrough(host, secure, s.next + 1), parse);
    FreshCallFetches(m, host, secure, parse);
    assert (s.fetches + [url]) + [url] == s.fetches + [url, url];
  }

  /**
   * Single flight holds only until a promise settles. Once the timer has
   * resolved `[]` the promise settles and frees the queue entry while its
   * fetch is still outstanding, so the next call for the host fetches the
   * same robots.txt URL a second time.
   */
  lemma SecondFetchAfterTimeout(s: State, host: string, secure: bool, parse: string -> JsValue)
    requires Inv(s) && host !in s.queue && "robotsTxtCache" !in s.storage
    ensures var h := s.next;
            var t := Run(s, CallThrough(host, secure, h) + [TimerFired(h), Settle(h)] + CallThrough(host, secure, h + 1), parse);
            && h in t.ops && t.ops[h].stage.Fetching? && t.ops[h].settled
            && h + 1 in t.ops && t.ops[h + 1].stage.Fetching?
            && t.fetches == s.fetches + [RobotsUrl(host, secure), RobotsUrl(host, secure)]
  {
    var h := s.next;
    FetchTimeoutSettle(s, host, secure, parse);
    FetchAgainAfter(s, CallThrough(host, secure, h) + [TimerFired(h), Settle(h)], host, secure, parse);
  }

  /** From the initial state, promise 0 is still fetching when promise 1 fetches the same URL again. */
  lemma SecondFetchFromInit(storage: Store, mirror: Store, host: string, secure: bool, parse: string -> JsValue)
    requires "robotsTxtCache" !in storage
    ensures var t := Run(Init(storage, mirror),
              CallThrough(host, secure, 0) + [TimerFired(0), Settle(0)] + CallThrough(host, secure, 1), parse);
            t.fetches == [RobotsUrl(host, secure), RobotsUrl(host, secure)] && 0 in t.ops && t.ops[0].stage.Fetching?
  {
    InitSatisfiesInv(storage, mirror);
    SecondFetchAfterTimeout(Init(storage, mirror), host, secure, parse);
  }
}

=== FILE: tab_state.dfy ===
/**
 * Per-tab state: `tabCache` (last detection per tab, written by
 * `displayApps`, set to `null` when the tab closes) and `urlCache` (the
 * request URLs seen per tab, append-only). Both are plain objects, so a tab
 * id is used through its property key, the id converted to a string.
 */
module TabState {
  import opened Wrappers
  import opened JsValues

  /** The property key a tab id is stored under. */
  function TabKey(id: JsValue): string {
    ToStr(id)
  }

  /** A `tabCache` entry: `null` once the tab closed, else `{ detected }`. */
  datatype TabSlot = Cleared | Live(detected: JsValue)

  type TabCache = map<string, TabSlot>

  /**
   * `displayApps(detected, meta, { tab })`. Without a tab nothing happens;
   * otherwise a missing or `null` entry is replaced by `{ detected: [] }`
   * and its `detected` is then overwritten wholesale.
   */
  function DisplayApps(cache: TabCache, detected: JsValue, tabId: Option<JsValue>): (r: TabCache)
    ensures tabId.None? ==> r == cache
    ensures tabId.Some? ==> r.Keys == cache.Keys + {TabKey(tabId.value)}
    ensures tabId.Some? ==> r[TabKey(tabId.value)] == Live(detected)
    ensures tabId.Some? ==> forall k :: k in cache && k != TabKey(tabId.value) ==> r[k] == cache[k]
  {
    match tabId
    case None => cache
    case Some(id) =>
      var k := TabKey(id);
      var entry := if k in cache && cache[k].Live? then cache[k] else Live(Arr([]));
      cache[k := entry.(detected := detected)]
  }

  /** The `tabs.onRemoved` listener: the entry becomes `null`; it is not deleted. */
  function OnTabRemoved(cache: TabCache, tabId: int): (r: TabCache)
    ensures r.Keys == cache.Keys + {TabKey(Num(tabId))}
    ensures r[TabKey(Num(tabId))] == Cleared
    ensures forall k :: k in cache && k != TabKey(Num(tabId)) ==> r[k] == cache[k]
  {
    cache[TabKey(Num(tabId)) := Cleared]
  }

  /** What `tabCache[id]` evaluates to: `undefined`, `null`, or `{ detected }`. */
  function TabCacheEntry(cache: TabCache, id: JsValue): (r: JsValue)
    ensures r.Undefined? <==> TabKey(id) !in cache
    ensures r.Null? <==> TabKey(id) in cache && cache[TabKey(id)].Cleared?
    ensures TabKey(id) in cache && cache[TabKey(id)].Live? ==> r == Obj(map["detected" := cache[TabKey(id)].detected])
  {
    var k := TabKey(id);
    if k !in cache then Undefined
    else match cache[k]
      case Cleared => Null
      case Live(d) => Obj(map["detected" := d])
  }

  /** A second detection replaces the first: results are overwritten, not merged. */
  lemma DisplayAppsOverwrites(cache: TabCache, d1: JsValue, d2: JsValue, tabId: JsValue)
    ensures DisplayApps(DisplayApps(cache, d1, Some(tabId)), d2, Some(tabId)) == DisplayApps(cache, d2, Some(tabId))
  {
  }

  /**
   * Tab teardown: removing twice is the same as removing once, the entry then
   * reads `null` whatever happened before, and a tab never seen reads `undefined`.
   */
  lemma TabRemovalIsIdempotent(cache: TabCache, tabId: int)
    ensures OnTabRemoved(OnTabRemoved(cache, tabId), tabId) == OnTabRemoved(cache, tabId)
    ensures TabCacheEntry(OnTabRemoved(cache, tabId), Num(tabId)) == Null
    ensures TabKey(Num(tabId)) !in cache ==> TabCacheEntry(cache, Num(tabId)) == Undefined
  {
  }

  /** A detection arriving after its tab closed re-creates the entry rather than failing. */
  lemma DisplayAfterRemovalRecreates(cache: TabCache, detected: JsValue, tabId: int)
    ensures TabCacheEntry(DisplayApps(OnTabRemoved(cache, tabId), detected, Some(Num(tabId))), Num(tabId))
              == Obj(map["detected" := detected])
  {
  }

  /** A `urlCache` entry: `null` after `clearRequestCache`, else the list of URLs. */
  datatype UrlSlot = NullUrls | Urls(urls: seq<string>)

  type UrlCache = map<string, UrlSlot>

  /** The URLs recorded so far under key `k` (none when the entry is missing or `null`). */
  function Recorded(cache: UrlCache, k: string): seq<string> {
    if k in cache && cache[k].Urls? then cache[k].urls else []
  }

  /** The entry under `k` is `null`. */
  predicate IsCleared(cache: UrlCache, k: string) {
    k in cache && cache[k].NullUrls?
  }

  /**
   * `addUrlToRequestCache(tab, url)`: a list is created only when the entry is
   * `undefined`; the URL is then pushed. Pushing onto a `null` entry throws a
   * TypeError, reported here as `None`.
   */
  function AddUrlToRequestCache(cache: UrlCache, tab: JsValue, url: string): (r: Option<UrlCache>)
    ensures r.None? <==> TabKey(tab) in cache && cache[TabKey(tab)].NullUrls?
    ensures r.Some? ==> r.value.Keys == cache.Keys + {TabKey(tab)}
    ensures r.Some? ==> r.value[TabKey(tab)] == Urls(Recorded(cache, TabKey(tab)) + [url])
    ensures r.Some? ==> forall k :: k in cache && k != TabKey(tab) ==> r.value[k] == cache[k]
  {
    var k := TabKey(tab);
    var base := if k !in cache then cache[k := Urls([])] else cache;
    match base[k]
    case NullUrls => None
    case Urls(us) => Some(base[k := Urls(us + [url])])
  }

  /** `getUrlCache(tab)`: the list, `{}` for a tab never seen, `null` for a cleared one. */
  function GetUrlCache(cache: UrlCache, tab: JsValue): (r: JsValue)
    ensures TabKey(tab) !in cache ==> r == Obj(map[])
    ensures TabKey(tab) in cache && cache[TabKey(tab)].NullUrls? ==> r == Null
    ensures TabKey(tab) in cache && cache[TabKey(tab)].Urls? ==>
              r.Arr? && |r.elems| == |cache[TabKey(tab)].urls|
              && forall i :: 0 <= i < |r.elems| ==> r.elems[i] == Str(cache[TabKey(tab)].urls[i])
  {
    var k := TabKey(tab);
    if k !in cache then Obj(map[])
    else match cache[k]
      case NullUrls => Null
      case Urls(us) => Arr(seq(|us|, i requires 0 <= i < |us| => Str(us[i])))
  }

  /** `clearRequestCache(tab)`: sets the entry to `null`. Nothing in the driver calls it. */
  function ClearRequestCache(cache: UrlCache, tab: JsValue): (r: UrlCache)
    ensures r.Keys == cache.Keys + {TabKey(tab)} && r[TabKey(tab)].NullUrls?
    ensures forall k :: k in cache && k != TabKey(tab) ==> r[k] == cache[k]
  {
    cache[TabKey(tab) := NullUrls]
  }

  /** As written, recording a URL for a tab whose list was cleared throws. */
  lemma AddAfterClearThrows(cache: UrlCache, tab: JsValue, url: string)
    ensures AddUrlToRequestCache(ClearRequestCache(cache, tab), tab, url).None?
  {
  }

  /** One `webRequest.onBeforeRequest` event: the request's tab id and URL. */
  datatype RequestSeen = RequestSeen(tabId: int, url: string)

  /** `a` is a prefix of `b`. */
  predicate Prefix(a: seq<string>, b: seq<string>) {
    |a| <= |b| && b[..|a|] == a
  }

  /**
   * The listener applied to a stream of requests. Each event is its own
   * listener call, so one that throws (a `null` entry) leaves the cache as it
   * was and later events are still recorded.
   */
  function Replay(cache: UrlCache, reqs: seq<RequestSeen>): (r: UrlCache)
    ensures cache.Keys <= r.Keys
    ensures forall k :: IsCleared(cache, k) ==> r[k] == NullUrls
    ensures forall k :: k in cache && cache[k].Urls? ==> r[k].Urls? && Prefix(cache[k].urls, r[k].urls)
    decreases |reqs|
  {
    if |reqs| == 0 then cache
    else
      var c := Replay(cache, reqs[..|reqs| - 1]);
      var last := reqs[|reqs| - 1];
      match AddUrlToRequestCache(c, Num(last.tabId), last.url)
      case None => c
      case Some(c') => c'
  }

  /** Reference definition: the URLs of the requests filed under key `k`, in arrival order. */
  function UrlsFor(reqs: seq<RequestSeen>, k: string): seq<string>
    decreases |reqs|
  {
    if |reqs| == 0 then []
    else
      var last := reqs[|reqs| - 1];
      UrlsFor(reqs[..|reqs| - 1], k) + (if TabKey(Num(last.tabId)) == k then [last.url] else [])
  }

  /** `Replay` of a stream with one more request is that request applied to the earlier result. */
  lemma ReplaySnoc(cache: UrlCache, init: seq<RequestSeen>, last: RequestSeen)
    ensures var c := Replay(cache, init);
            var added := AddUrlToRequestCache(c, Num(last.tabId), last.url);
            Replay(cache, init + [last]) == (if added.Some? then added.value else c)
    ensures forall k :: UrlsFor(init + [last], k) ==
              UrlsFor(init, k) + (if TabKey(Num(last.tabId)) == k then [last.url] else [])
  {
    var reqs := init + [last];
    assert reqs[..|reqs| - 1] == init;
  }

  /** The step of `Replay` for a request from the tab filed under `k`: its URL is appended unless the entry is `null`. */
  lemma ReplayStepSameTab(cache: UrlCache, init: seq<RequestSeen>, last: RequestSeen, k: string)
    requires TabKey(Num(last.tabId)) == k
    requires IsCleared(cache, k) ==> Replay(cache, init)[k] == NullUrls
    requires k in Replay(cache, init) && !IsCleared(cache, k) ==>
               Replay(cache, init)[k] == Urls(Recorded(cache, k) + UrlsFor(init, k))
    requires k !in Replay(cache, init) ==> k !in cache && UrlsFor(init, k) == []
    ensures var r := Replay(cache, init + [last]);
            && k in r
            && (IsCleared(cache, k) ==> r[k] == NullUrls)
            && (!IsCleared(cache, k) ==> r[k] == Urls(Recorded(cache, k) + UrlsFor(init + [last], k)))
  {
    ReplaySnoc(cache, init, last);
    var c := Replay(cache, init);
    if IsCleared(cache, k) {
      assert AddUrlToRequestCache(c, Num(last.tabId), last.url).None?;
    } else {
      assert Recorded(c, k) == Recorded(cache, k) + UrlsFor(init, k);
    }
  }

  /** The step of `Replay` for a request from another tab leaves the entry under `k` alone. */
  lemma ReplayStepOtherTab(cache: UrlCache, init: seq<RequestSeen>, last: RequestSeen, k: string)
    requires TabKey(Num(last.tabId)) != k
    ensures var r := Replay(cache, init + [last]);
            && (k in r <==> k in Replay(cache, init))
            && (k in r ==> r[k] == Replay(cache, init)[k])
            && UrlsFor(init + [last], k) == UrlsFor(init, k)
  {
    var reqs := init + [last];
    assert reqs[..|reqs| - 1] == init;
  }

  /** What one more request does to the entry under `k`, given what the earlier requests did to it. */
  lemma ReplayStepAt(cache: UrlCache, init: seq<RequestSeen>, last: RequestSeen, k: string)
    requires k in Replay(cache, init) <==> k in cache || UrlsFor(init, k) != []
    requires IsCleared(cache, k) ==> Replay(cache, init)[k] == NullUrls
    requires k in Replay(cache, init) && !IsCleared(cache, k) ==>
               Replay(cache, init)[k] == Urls(Recorded(cache, k) + UrlsFor(init, k))
    ensures var r := Replay(cache, init + [last]);
            && (k in r <==> k in cache || UrlsFor(init + [last], k) != [])
            && (IsCleared(cache, k) ==> r[k] == NullUrls)
            && (k in r && !IsCleared(cache, k) ==> r[k] == Urls(Recorded(cache, k) + UrlsFor(init + [last], k)))
  {
    if TabKey(Num(last.tabId)) == k {
      ReplayStepSameTab(cache, init, last, k);
      assert UrlsFor(init + [last], k) != [] by {
        var reqs := init + [last];
        assert reqs[..|reqs| - 1] == init;
      }
    } else {
      ReplayStepOtherTab(cache, init, last, k);
    }
  }

  /**
   * From any cache, a stream of requests leaves every `null` entry `null`
   * and appends to every other tab's list exactly that tab's URLs in arrival
   * order; an entry exists afterwards exactly when it existed before or the
   * tab made a request.
   */
  lemma {:induction false} ReplayAppendsPerTab(cache: UrlCache, reqs: seq<RequestSeen>)
    ensures forall k :: k in Replay(cache, reqs) <==> k in cache || UrlsFor(reqs, k) != []
    ensures forall k :: IsCleared(cache, k) ==> Replay(cache, reqs)[k] == NullUrls
    ensures forall k :: k in Replay(cache, reqs) && !IsCleared(cache, k) ==>
              Replay(cache, reqs)[k] == Urls(Recorded(cache, k) + UrlsFor(reqs, k))
    decreases |reqs|
  {
    if |reqs| > 0 {
      var init := reqs[..|reqs| - 1];
      var last := reqs[|reqs| - 1];
      assert reqs == init + [last];
      ReplayAppendsPerTab(cache, init);
      forall k
        ensures k in Replay(cache, reqs) <==> k in cache || UrlsFor(reqs, k) != []
        ensures IsCleared(cache, k) ==> Replay(cache, reqs)[k] == NullUrls
        ensures k in Replay(cache, reqs) && !IsCleared(cache, k) ==>
                  Replay(cache, reqs)[k] == Urls(Recorded(cache, k) + UrlsFor(reqs, k))
      {
        ReplayStepAt(cache, init, last, k);
      }
    }
  }

  /**
   * Starting from the empty cache, each tab's list holds exactly that tab's
   * URLs in arrival order, and tabs with no request have no entry.
   */
  lemma ReplayRecordsInOrder(reqs: seq<RequestSeen>)
    ensures forall k :: k in Replay(map[], reqs) <==> UrlsFor(reqs, k) != []
    ensures forall k :: k in Replay(map[], reqs) ==> Replay(map[], reqs)[k] == Urls(UrlsFor(reqs, k))
  {
    ReplayAppendsPerTab(map[], reqs);
  }

  /** A tab whose list was cleared stays `null`; the requests of every other tab are still recorded. */
  lemma {:induction false} ClearedTabDoesNotBlockOthers(cache: UrlCache, cleared: JsValue, reqs: seq<RequestSeen>, tab: JsValue)
    requires TabKey(tab) != TabKey(cleared)
    ensures var r := Replay(ClearRequestCache(cache, cleared), reqs);
            && r[TabKey(cleared)] == NullUrls
            && (TabKey(tab) in r <==> TabKey(tab) in cache || UrlsFor(reqs, TabKey(tab)) != [])
            && ((TabKey(tab) !in cache || cache[TabKey(tab)].Urls?) && TabKey(tab) in r ==>
                  r[TabKey(tab)] == Urls(Recorded(cache, TabKey(tab)) + UrlsFor(reqs, TabKey(tab))))
  {
    ReplayAppendsPerTab(ClearRequestCache(cache, cleared), reqs);
  }

  /**
   * What `getUrlCache(tabId)` returns after a stream of requests from the
   * empty cache: `{}` for a tab that made no request, otherwise the array of
   * exactly that tab's URLs in arrival order.
   */
  lemma GetUrlCacheAfterReplay(reqs: seq<RequestSeen>, tab: JsValue)
    ensures var r := GetUrlCache(Replay(map[], reqs), tab);
            var us := UrlsFor(reqs, TabKey(tab));
            && (us == [] ==> r == Obj(map[]))
            && (us != [] ==> r.Arr? && |r.elems| == |us| && forall i :: 0 <= i < |us| ==> r.elems[i] == Str(us[i]))
  {
    ReplayRecordsInOrder(reqs);
  }

  /** The two per-tab tables of the driver. */
  datatype TabTables = TabTables(tabs: TabCache, urls: UrlCache)

  /** Closing a tab touches only its `tabCache` entry; its recorded URLs are kept. */
  function CloseTab(t: TabTables, tabId: int): (r: TabTables)
    ensures r.urls == t.urls
    ensures TabCacheEntry(r.tabs, Num(tabId)) == Null
    ensures forall k :: k in t.tabs && k != TabKey(Num(tabId)) ==> k in r.tabs && r.tabs[k] == t.tabs[k]
  {
    t.(tabs := OnTabRemoved(t.tabs, tabId))
  }
}
